=== FILE: README.md ===
# Car rental storefront: booking, deletion cascade and search, in Dafny

A model of the business logic of a car-rental storefront whose data lives in
a hosted relational backend (tables `cars`, `customers`, `rentals`,
`insurance`, `payments`). The backend is an abstract store, one map from row
id to row per table. Every backend call is a step that either succeeds or
fails, and a multi-call procedure takes as a parameter the call that fails,
if any. Timestamps are integer milliseconds, and rates and amounts are
integers.

What is modelled:

- **The booking wizard** (`components/rentals/rental-modal.tsx`):
  - the day count, insurance cost and total cost;
  - the customer-details check, with eight required fields that are trimmed;
  - the payment check, with four fields all checked;
  - the rule by which typing into a field clears its error;
  - the step machine `dates -> details -> payment -> confirmation` and its guards;
  - the open-time reset;
  - saving the details;
  - "Complete Rental": four writes in a fixed order that stop at the first failure and roll nothing back.
- **Customer deletion** (`app/admin/page.tsx`, `app/profile/page.tsx`). It finds the customer's active rentals, cancels them, frees their cars and then deletes the profile row. The admin table version drops the row from the page's list. The self-service version signs the user out only after the row is deleted.
- **The admin rental edit**, which frees the car only when the status moves into "completed" or "cancelled". Also the add-car status default and car deletion.
- **The profile page**: loading the row (null shows as "") and saving it back.
- **The home page**: the user's active rentals, the available cars, and the case-insensitive search over make, model and colour.
- **A cross-table invariant**: a car is "rented" exactly when it has an active rental, there is at most one such rental, and that car exists. The model shows which procedures keep this invariant when they complete, and which partial failures or admin edits break it.

Modules: `Text` covers the JavaScript string primitives (`trim`, `includes`, `toLowerCase`). `Schema` holds the rows and the store, and `Lists` models `Array.prototype.filter`. Then come `Pricing`, `Validation`, `Wizard`, `Cascade`, `Admin`, `ProfilePage`, `Home` and `Consistency`.

The open effect (components/rentals/rental-modal.tsx:94-106) resets the errors, the flags and the card fields but keeps the step, the tier and the dates. `Wizard.ReopenAtConfirmationSkipsPayment` shows the consequence: a dialog closed on the confirmation step re-opens there with an empty card, and "Complete Rental" is offered.

## Model

| member | source | states |
|---|---|---|
| Text.TrimStart | components/rentals/rental-modal.tsx:190 | The leading-whitespace removal keeps a suffix, drops only whitespace and leaves no whitespace at the front |
| Text.TrimEnd | components/rentals/rental-modal.tsx:190 | The trailing-whitespace removal keeps a prefix, drops only whitespace and leaves no whitespace at the end |
| Text.TrimEmptyIffBlank | components/rentals/rental-modal.tsx:190 | `trim()` yields "" exactly when every character is whitespace |
| Text.HasTextIffTrimmedNonEmpty | components/rentals/rental-modal.tsx:120 | The truthiness test `value.trim()` used by the handlers is "not all whitespace" |
| Text.ContainsIffOccurs | app/home/page.tsx:103-105 | The left-to-right `includes` scan is true exactly when the term occurs at some index |
| Text.Utf16Length | components/rentals/rental-modal.tsx:218 | `s.length` counts UTF-16 code units: one per character plus one more for each character above U+FFFF, so between one and two per character, and exactly one each when none lies above U+FFFF |
| Text.ToLower | app/home/page.tsx:103-105 | Lowering keeps the length and maps each character on its own |
| Text.ToLowerIdempotent | app/home/page.tsx:103-105 | Lowering twice is lowering once |
| Schema.Insert | app/admin/page.tsx:100-109 | An insert adds exactly the new row and keeps the others; it is refused when the id is taken |
| Schema.UpdateIn | app/admin/page.tsx:580-597 | A batch update by a list of ids rewrites exactly the listed rows that exist; ids with no row are ignored and the table keeps its keys |
| Schema.SetCarStatus | app/admin/page.tsx:591-597 | The batch car update sets the status of the listed cars that exist and changes nothing else |
| Schema.SetRentalStatus | app/admin/page.tsx:580-586 | The batch rental update sets the status of the listed rentals that exist and changes nothing else |
| Schema.FetchCustomer | components/rentals/rental-modal.tsx:74-88 | A fetch returns the signed-in user's row, or nothing when there is no user, the read fails or no row exists |
| Schema.UpsertProfile | components/rentals/rental-modal.tsx:240-243 | An upsert writes the columns the draft sends, keeps every column it does not send (null in a new row), creates the row if needed, keeps the admin flag (a new row is taken not to be an admin) and leaves every other row alone |
| Schema.UpsertFullDraft | app/profile/page.tsx:81-85 | Upserting a draft that carries all nine fields replaces the whole profile |
| Lists.Keep | app/home/page.tsx:101-106 | `filter` returns an order-preserving subsequence holding exactly the elements that pass, each as often as in the input |
| Lists.KeepAgree | app/home/page.tsx:101-106 | Two tests that agree on every element filter a list identically |
| Lists.KeepAll | app/home/page.tsx:101-106 | A test every element passes filters nothing out |
| Pricing.CeilDiv | components/rentals/rental-modal.tsx:54 | `Math.ceil(a / b)` is the least q with a <= q*b |
| Pricing.CeilDivUnique | components/rentals/rental-modal.tsx:54 | Those bounds determine the quotient uniquely |
| Pricing.Days | components/rentals/rental-modal.tsx:54 | The day count is 0 when either date is missing, and otherwise the elapsed milliseconds rounded up to whole days, with no lower bound |
| Pricing.TierRate | components/rentals/rental-modal.tsx:56 | The daily insurance rate is 15 for "basic", 25 for "standard" and 40 for any other tier string |
| Pricing.TotalIsDailySum | components/rentals/rental-modal.tsx:56-58 | The total is days times (car rate + tier rate), and the insurance cost is days times the tier rate |
| Pricing.WholeDays | components/rentals/rental-modal.tsx:54 | A period of exactly k days counts k days |
| Pricing.PartDayRoundsUp | components/rentals/rental-modal.tsx:54 | Any started day counts as a whole day |
| Pricing.NoPositiveChargeWithoutForwardDates | components/rentals/rental-modal.tsx:54-58 | For a non-negative rate, an end at or before the start gives a day count, insurance cost and total that are all at most 0 |
| Pricing.BasicThreeDaysExample | components/rentals/rental-modal.tsx:54-58 | Basic cover for three days at rate 50 costs 45 for insurance and 195 in all |
| Validation.CollectMissing | components/rentals/rental-modal.tsx:188-193 | Walking a field list flags exactly the listed fields that are missing or blank, each with "This field is required" |
| Validation.RequiredFieldsExceptAddressLine2 | components/rentals/rental-modal.tsx:61-70 | The required fields are all the profile fields except the second address line |
| Validation.ValidateDetails | components/rentals/rental-modal.tsx:185-197 | The details check flags a field exactly when it is not the second address line and is null, empty or whitespace-only |
| Validation.DetailsValidIff | components/rentals/rental-modal.tsx:185-197 | The details pass exactly when every field except the second address line is present and not blank |
| Validation.HasAllRequired | components/rentals/rental-modal.tsx:85 | The load-time check passes exactly when every field except the second address line is present and not the empty string; a field of spaces passes |
| Validation.RequiredEntriesByField | components/rentals/rental-modal.tsx:85 | Walking the list of required fields and checking every field other than the second address line are the same condition |
| Validation.DetailsValidImpliesHasAllRequired | components/rentals/rental-modal.tsx:85 | Details that pass the trimmed check also pass the untrimmed load-time check |
| Validation.BlankFieldPassesLoadCheckOnly | components/rentals/rental-modal.tsx:85 | The converse fails: a whitespace-only city passes the load-time check but fails the details check |
| Validation.ClearDetailError | components/rentals/rental-modal.tsx:115-127 | Typing into a profile field removes that field's error exactly when the value is not blank; a kept error keeps its message, and every other error stays as it was |
| Validation.Accepted | components/rentals/rental-modal.tsx:134-176 | Editing a card field clears its error only for a non-blank value; an expiry must also contain "/", and a CVV must be at least three UTF-16 code units long |
| Validation.CardFieldError | components/rentals/rental-modal.tsx:199-220 | A card field gets no message exactly when it is accepted: non-blank, an expiry containing "/", a CVV of at least three UTF-16 code units |
| Validation.ValidatePayment | components/rentals/rental-modal.tsx:199-224 | The payment check flags exactly the fields that are not accepted, each with the message the page shows; blankness takes precedence over format |
| Validation.ClearCardError | components/rentals/rental-modal.tsx:129-183 | Typing into a card field removes that field's error exactly when the value is accepted; a kept error keeps its message, and every other error stays as it was |
| Validation.ClearCardErrorAgreesWithValidator | components/rentals/rental-modal.tsx:129-183 | The card edit rule clears a field's error exactly when re-validating the edited card would not flag that field |
| Validation.ClearDetailErrorAgreesWithValidator | components/rentals/rental-modal.tsx:115-127 | The profile edit rule clears a field's error exactly when re-validating the edited draft would not flag that field |
| Validation.CvvLengthInCodeUnits | components/rentals/rental-modal.tsx:216-220 | "1" followed by a character above U+FFFF is three code units long and passes the CVV length rule; "12" fails it |
| Validation.PaymentFieldsIndependent | components/rentals/rental-modal.tsx:199-224 | Changing one card field never changes the presence or message of another field's error |
| Wizard.Initial | components/rentals/rental-modal.tsx:35-51 | A new dialog starts closed on the dates step with basic cover on a three-day booking from now, an empty draft and card, no errors, nothing touched, not submitting, and the profile not yet known to be complete |
| Wizard.GoTo | components/rentals/rental-modal.tsx:109-113 | Changing the step clears the "payment attempted" flag and the touched fields; staying on a step changes nothing |
| Wizard.Close | components/rentals/rental-modal.tsx:708 | Closing only clears the open flag; every other part of the dialog, including the step, is kept for the next opening |
| Wizard.Open | components/rentals/rental-modal.tsx:94-106 | Opening clears the errors, the flags and the four card fields, and loads a fetched row with its untrimmed completeness check. It keeps the step, the tier and the dates |
| Wizard.Continue | components/rentals/rental-modal.tsx:417-424 | "Continue" goes to payment when the stored profile was complete, and to details otherwise; it is a step change, so only the attempt flag and the touched fields are reset and nothing else changes |
| Wizard.Back | components/rentals/rental-modal.tsx:572 | "Back" returns to the dates step as a plain step change; the drafts, the card and the errors are kept |
| Wizard.EditDetail | components/rentals/rental-modal.tsx:115-127 | Typing into a profile field sets it and applies the error-clearing rule; nothing else changes |
| Wizard.EditCard | components/rentals/rental-modal.tsx:129-183 | Typing into a card field sets it, marks it touched and applies the error-clearing rule; nothing else changes |
| Wizard.SaveDetails | components/rentals/rental-modal.tsx:226-262 | Saving validates the draft. Only when it passes and the upsert succeeds is the row stored, the details marked complete and the payment step entered; otherwise the store and the step are unchanged. Beyond the validation errors, the completeness flag and the step change, the dialog is left as it was |
| Wizard.ProcessPayment | components/rentals/rental-modal.tsx:264-279 | Paying records every card error; a valid card moves to confirmation without touching the store, and an invalid card stays put with the attempt flagged. Nothing else in the dialog changes |
| Wizard.Submit | components/rentals/rental-modal.tsx:281-345 | The writes happen in order (rental, insurance, payment, car) up to the first failure, each with its exact row. The dialog closes only after all four, and the busy flag is always cleared |
| Wizard.Enabled | components/rentals/rental-modal.tsx:352-704 | An action is offered only while the dialog is open and on the step whose screen renders its control: "Continue" and the tier and date pickers on the dates step (lines 354-424), the detail inputs and "Save and Continue" on the details step, "Back" on the details and payment steps (lines 572, 668), the card inputs and "Pay" on the payment step. "Complete Rental" is offered only on the confirmation step while no submission is in flight (line 698). Opening is offered exactly when the dialog is closed, closing exactly when it is open |
| Wizard.Apply | components/rentals/rental-modal.tsx:352-708 | Dispatches each control's event to its own handler: close, open, the field edits, "Continue", "Back", "Pay", "Save and Continue" and "Complete Rental" each give exactly that handler's result. The tier and date pickers set their own field and change nothing else. Every event other than saving details and completing the rental leaves the store alone |
| Wizard.SavedDetailsSkipDetailsStepOnReopen | components/rentals/rental-modal.tsx:72-90 | After valid details are saved, the next opening reads back a row that passes the load-time check and carries every value of the draft, so "Continue" goes straight to payment |
| Wizard.ConfirmationOnlyAfterValidPayment | components/rentals/rental-modal.tsx:264-279 | The confirmation step is entered only by paying with a card that passes the payment check |
| Wizard.PaymentStepEntry | components/rentals/rental-modal.tsx:226-262 | The payment step is entered only by "Continue" on the dates step with a complete stored profile, or by a successful save of valid details |
| Wizard.OnlySaveAndSubmitWrite | components/rentals/rental-modal.tsx:226-345 | Of all the dialog's events, only saving details and completing the rental change the store |
| Wizard.OpenIdempotent | components/rentals/rental-modal.tsx:94-106 | Opening twice with the same fetch result is the same as opening once |
| Wizard.ReopenAtConfirmationSkipsPayment | components/rentals/rental-modal.tsx:94-106 | A dialog closed on the confirmation step re-opens there with an empty card that fails the payment check, yet "Complete Rental" is enabled |
| Wizard.SubmitSuccess | components/rentals/rental-modal.tsx:281-334 | A fully successful submit leaves an active rental for the car, its insurance and payment linked to it, the car rented and the dialog closed |
| Wizard.SubmitFailsAtInsurance | components/rentals/rental-modal.tsx:300-311 | A failed insurance insert keeps the active rental already written, writes nothing more and keeps the dialog open |
| Cascade.ActiveRentalsOf | app/admin/page.tsx:569-573 | The query selects exactly the customer's rentals with status "active" |
| Cascade.CarsOf | app/admin/page.tsx:594-597 | The freed cars are exactly those referenced by the selected rentals |
| Cascade.DeleteCustomerCascade | app/admin/page.tsx:564-605 | The cascade cancels the active rentals, frees their cars and deletes the row, in that order, up to the first failure. The batch updates are skipped when there is no active rental, and insurance and payments are untouched |
| Cascade.NoActiveRentalsNoWrites | app/admin/page.tsx:578 | With no active rental, no rental or car is written |
| Cascade.CompletedCascade | app/admin/page.tsx:578-605 | A completed cascade leaves no profile row and no active rental for the customer; only the customer's active rentals and their cars change |
| Cascade.FailureKeepsProfile | app/admin/page.tsx:575-605 | Any failure before the delete leaves the profile row in place |
| Cascade.FreeCarsFailureIsPartial | app/admin/page.tsx:588-599 | A failed car update leaves the rentals cancelled but the cars and the profile row as they were |
| Cascade.AdminDeleteCustomer | app/admin/page.tsx:612 | On success the page's list drops exactly the deleted id and keeps the rest in order; on failure the list is unchanged; the confirmation dialog is closed in either case |
| Cascade.DeleteAccount | app/profile/page.tsx:105-169 | Self-service deletion runs the cascade for the signed-in user. It signs out exactly when the row was deleted, and closes the dialog on failure |
| Cascade.AccountDeletionMatchesAdmin | app/profile/page.tsx:111-148 | Self-service and admin deletion of the same customer leave the same store |
| Cascade.SignOutOnlyAfterDelete | app/profile/page.tsx:146-165 | A user who is signed out has no profile row left |
| Admin.FreesCar | app/admin/page.tsx:879-883 | An edit frees the car exactly when it moves the status into "completed" or "cancelled" from anything else |
| Admin.PreviousStatus | app/admin/page.tsx:866 | The previous status is that of the first listed rental with the id, or absent when none is listed |
| Admin.WriteRentalEdit | app/admin/page.tsx:868-875 | The edit writes the rental's dates and status and nothing else |
| Admin.UpdateRental | app/admin/page.tsx:864-919 | A rental edit writes the rental, frees the car only on a transition into a closed status, and reports success only when every call succeeds |
| Admin.DateOnlyOrReactivatingEditKeepsCar | app/admin/page.tsx:879-890 | An edit that keeps the status, or sets it to "active", never writes the car |
| Admin.CompletingFreesCar | app/admin/page.tsx:879-890 | Completing an active rental makes its car available |
| Admin.NewCarStatus | app/admin/page.tsx:108 | An unset or empty status becomes "available"; any other value is kept |
| Admin.AddCar | app/admin/page.tsx:98-137 | Adding a car inserts exactly one row with the form's values and the defaulted status, and changes no other table |
| Admin.DeleteCar | app/admin/page.tsx:182-204 | A successful delete removes the car from the store and exactly that id from the list, keeping the order; a failure changes nothing |
| ProfilePage.EmptyForm | app/profile/page.tsx:22-32 | The form starts with every one of the nine fields empty |
| ProfilePage.Load | app/profile/page.tsx:47-58 | Loading a row fills every field, showing each null field as "" |
| ProfilePage.Save | app/profile/page.tsx:75-103 | Saving upserts the form into the user's row without validation, so every field of the form is stored (the full form replaces the profile), and changes no other row |
| ProfilePage.SaveThenLoad | app/profile/page.tsx:81-85 | A saved form comes back unchanged on the next load |
| ProfilePage.LoadThenSaveNormalisesNulls | app/profile/page.tsx:48-58 | A load followed by a save replaces the row's null fields by "" and keeps the others |
| Home.CurrentRentals | app/home/page.tsx:34-45 | "Current rentals" are exactly the user's active rentals |
| Home.AvailableCars | app/home/page.tsx:47-52 | "Available cars" are exactly the cars with status "available" |
| Home.FilterCars | app/home/page.tsx:101-106 | The search result is an order-preserving subsequence of the available cars, holding exactly those that match |
| Home.MatchesIffOccurs | app/home/page.tsx:101-106 | A car matches exactly when the lowered term occurs in its lowered make, model or colour |
| Home.SearchIgnoresCase | app/home/page.tsx:101-106 | Searching for a term and for its lowered form gives the same list |
| Home.EmptyTermShowsAll | app/home/page.tsx:154 | The empty term (initially and after "Clear") shows every available car in order |
| Consistency.CascadePreservesConsistency | app/admin/page.tsx:578-605 | A completed customer deletion keeps the rental/car invariant |
| Consistency.CascadeFreeCarsFailureBreaksConsistency | app/admin/page.tsx:588-599 | A failed car update in the cascade leaves the car of every cancelled rental marked "rented" with no active rental for it, so the invariant fails |
| Consistency.BookingKeepsTablesConsistent | components/rentals/rental-modal.tsx:288-327 | Adding an active rental for an available car and marking that car rented keeps the invariant |
| Consistency.SubmitPreservesConsistency | components/rentals/rental-modal.tsx:281-345 | A fully successful booking of an available car keeps the invariant |
| Consistency.SubmitFailureAfterRentalBreaksConsistency | components/rentals/rental-modal.tsx:300-327 | A submit that fails after the rental insert leaves the new rental active while its car is still "available", so the invariant fails |
| Consistency.ClosingEditPreservesConsistency | app/admin/page.tsx:864-890 | Completing or cancelling an active rental through the admin edit keeps the invariant |
| Consistency.ReactivatingEditBreaksConsistency | app/admin/page.tsx:879-890 | Setting a rental of an available car back to "active" leaves that rental active and its car "available", so the invariant fails |
| Consistency.BookedCarLeavesAvailableList | app/home/page.tsx:48 | After a successful booking the car is no longer among the available cars |
| Consistency.FreedCarsBecomeAvailable | app/home/page.tsx:48 | After a completed customer deletion every freed car is among the available cars |
| Consistency.BookingShowsInCurrentRentals | app/home/page.tsx:34-41 | After a successful booking the new rental, for the booked car, is among the renter's current rentals |
| Consistency.DeletionEmptiesCurrentRentals | app/home/page.tsx:34-41 | After a completed customer deletion that customer has no current rental and every other customer's current rentals are unchanged |
| Consistency.AddingAvailableCarPreservesConsistency | app/admin/page.tsx:98-111 | Adding a car whose status is unset or "available" keeps the invariant |
| Consistency.AddingRentedCarBreaksConsistency | app/admin/page.tsx:108 | Adding a car with status "rented" creates a car marked "rented" with no active rental for it, so the invariant fails |
| Consistency.DeletingRentedCarBreaksConsistency | app/admin/page.tsx:182-188 | Deleting a car that has an active rental leaves that rental active while its car row is gone, so the invariant fails |

## Left out

- Backend client details: error objects, `select()` shapes, toasts and console logging are left out. Each call is a store operation whose failure is a parameter, and the ids the backend assigns to inserted rows are parameters too.
- Realtime subscriptions on the home page (app/home/page.tsx:62-98): they only trigger a re-fetch.
- Authentication, the session, route guards, the layout, the header and the landing page are identity-provider wiring and UI. The sign-in identity is not in the store, so neither deletion path touches it.
- The "Rent Now only for available cars" gate (components/cars/car-card.tsx:50) is not part of `Wizard.Enabled`. The consistency lemmas about booking instead require the car to be available.
- Loading and busy flags other than the wizard's `isSubmitting` are left out: the admin's per-customer `isDeleting` marker and the profile page's `isLoading`, `isSaving` and `isDeleting`. Modelled dialog visibility: the booking dialog, the account-deletion dialog and the admin's customer-deletion confirmation. The add-car and rental-edit dialogs close exactly when the outcome's `saved` is true.
- The browser `confirm()` before a car is deleted (app/admin/page.tsx:183) is not a separate input: declining it changes nothing, the same as `Admin.DeleteCar` with a failed delete.
- Re-fetched lists and their `created_at` ordering: the refresh after an admin add or edit is modelled only as a call that can fail.
- `shouldShowError` (components/rentals/rental-modal.tsx:348-350) is display styling. The touched set and the attempt flag it reads are modelled.
- The admin edit forms (app/admin/page.tsx:139-180, 509-552) and the profile form's change handler (app/profile/page.tsx:70-73) are pass-through field updates.
- `Number(...)` conversion of the year and rate in the add-car form is left out: the form holds integers.
- JavaScript `Date`, `toISOString` and date formatting are left out: timestamps are integer milliseconds.
- Floating-point arithmetic is left out: `Math.ceil` of a float quotient is modelled as exact integer ceiling division, and rates and costs are integers.
- Every handler is modelled as atomic: the open-time fetch (components/rentals/rental-modal.tsx:72-92) completes inside `Wizard.Open`, and no event can arrive during the awaits of the details save (line 240), the submit (lines 288-327) or the deletion cascades. So `isSubmitting` is never true between events, and the "Complete Rental" busy guard (line 698) can never be what refuses the button. Interleavings such as a fetch resolving after the user has started editing the draft, or closing and reopening the dialog while a submit is still in flight, cannot be expressed.
- Concurrent sessions and double booking are left out. The code has no locking, so two sessions can book the same car.
- The booking wizard's upsert sends every column of the draft, which after a successful fetch includes the row's own non-profile columns. `Schema.UpsertProfile` models this as writing the profile columns sent and keeping the row's admin flag.
- Schema.UpsertProfile: a row the upsert creates is taken to have a false admin flag. The column's default lives in the database schema, which is not part of this model; the row type only marks `admin` optional (types/supabase.ts:71).
- The store has no foreign keys and no referential actions: deleting a car or a customer does not touch the rows that refer to it. `Consistency.DeletingRentedCarBreaksConsistency` and the statement that `Cascade.DeleteCustomerCascade` leaves insurance and payments untouched both rest on that.
- Text.ToLower: maps only the ASCII letters A-Z. JavaScript's `toLowerCase` also lowers other Unicode letters, so the search model is case-insensitive only for ASCII.
- Wizard.Initial: the end date is the start plus exactly three days of milliseconds, taken from one clock reading. The source adds three calendar days with `setDate`, which differs across a daylight-saving change. It also reads the clock separately for the start and the end (components/rentals/rental-modal.tsx:37-38), so a tick between the two readings makes the initial day count 4.

=== FILE: admin.dfy ===
/**
  The admin dashboard's writes other than customer deletion: editing a
  rental (and freeing its car when the edit closes it), adding a car, and
  deleting a car.
 */
module Admin {
  import opened Schema
  import opened Lists

  /** Whether a rental edit frees the car: the new status is "completed" and
      the previous one was not, or the new status is "cancelled" and the
      previous one was not. An unknown previous status counts as different. */
  function FreesCar(previous: Option<string>, next: string): (frees: bool)
    ensures frees <==> (next == Completed || next == Cancelled) && previous != Some(next)
  {
    (previous != Some(Completed) && next == Completed) || (previous != Some(Cancelled) && next == Cancelled)
  }

  /** `rentals.find((r) => r.id === id)?.status` on the page's local list. */
  function PreviousStatus(rentals: seq<Rental>, id: Id): (status: Option<string>)
    ensures status.None? <==> forall i | 0 <= i < |rentals| :: rentals[i].id != id
    ensures status.Some? ==> exists i | 0 <= i < |rentals| ::
      rentals[i].id == id && rentals[i].status == status.value
      && forall j | 0 <= j < i :: rentals[j].id != id
  {
    if rentals == [] then None
    else if rentals[0].id == id then Some(rentals[0].status)
    else
      var rest := PreviousStatus(rentals[1..], id);
      assert forall i | 1 <= i < |rentals| :: rentals[i] == rentals[1..][i - 1];
      if rest.Some? then
        ghost var i :| 0 <= i < |rentals[1..]| && rentals[1..][i].id == id && rentals[1..][i].status == rest.value
                       && forall j | 0 <= j < i :: rentals[1..][j].id != id;
        assert rentals[i + 1].id == id;
        rest
      else rest
  }

  /** The backend calls of a rental edit, in order. */
  datatype EditStep = WriteRental | FreeCar | RefreshRentals

  datatype EditOutcome = EditOutcome(store: Store, saved: bool)

  /** `update({ start_date, end_date, status }).eq("id", id)` on the rentals table. */
  function WriteRentalEdit(rentals: map<Id, Rental>, edit: Rental): (r: map<Id, Rental>)
    ensures r.Keys == rentals.Keys
    ensures edit.id in rentals ==>
      r[edit.id] == rentals[edit.id].(startDate := edit.startDate, endDate := edit.endDate, status := edit.status)
    ensures forall k | k in rentals && k != edit.id :: r[k] == rentals[k]
  {
    if edit.id in rentals
    then rentals[edit.id := rentals[edit.id].(startDate := edit.startDate, endDate := edit.endDate, status := edit.status)]
    else rentals
  }

  /** Saving the rental edit form: write the rental's dates and status; if the
      edit closes the rental (by the page's own record of its previous status)
      make its car available; then re-read the list. The dialog closes only
      when every call succeeds. */
  function UpdateRental(st: Store, listed: seq<Rental>, edit: Rental, fail: Option<EditStep>): (r: EditOutcome)
    ensures fail == Some(WriteRental) ==> r == EditOutcome(st, false)
    ensures fail != Some(WriteRental) ==>
      var frees := FreesCar(PreviousStatus(listed, edit.id), edit.status);
      && r.store.rentals == WriteRentalEdit(st.rentals, edit)
      && r.store.cars == (if frees && fail != Some(FreeCar) then SetCarStatus(st.cars, {edit.carId}, Available) else st.cars)
      && (r.saved <==> fail.None? || (fail == Some(FreeCar) && !frees))
    ensures r.store.customers == st.customers && r.store.insurance == st.insurance && r.store.payments == st.payments
  {
    if fail == Some(WriteRental) then EditOutcome(st, false)
    else
      var st1 := st.(rentals := WriteRentalEdit(st.rentals, edit));
      if FreesCar(PreviousStatus(listed, edit.id), edit.status) then
        if fail == Some(FreeCar) then EditOutcome(st1, false)
        else
          assert fail.Some? ==> fail.value.RefreshRentals?;
          EditOutcome(st1.(cars := SetCarStatus(st.cars, {edit.carId}, Available)), fail != Some(RefreshRentals))
      else
        assert fail.Some? ==> fail.value.FreeCar? || fail.value.RefreshRentals?;
        EditOutcome(st1, fail != Some(RefreshRentals))
  }

  /** An edit that keeps the status, or sets it to "active", never writes the car. */
  lemma DateOnlyOrReactivatingEditKeepsCar(st: Store, listed: seq<Rental>, edit: Rental, fail: Option<EditStep>)
    requires PreviousStatus(listed, edit.id) == Some(edit.status) || edit.status == Active
    ensures UpdateRental(st, listed, edit, fail).store.cars == st.cars
  {
  }

  /** Completing an active rental frees its car. */
  lemma CompletingFreesCar(st: Store, listed: seq<Rental>, edit: Rental)
    requires PreviousStatus(listed, edit.id) == Some(Active) && edit.status == Completed
    requires edit.carId in st.cars
    ensures var r := UpdateRental(st, listed, edit, None);
            r.saved && r.store.cars[edit.carId].status == Available
  {
  }

  /** The add-car form: every column but the status is required by the form;
      the status may be left unset. */
  datatype CarForm = CarForm(
    locationId: Id, model: string, make: string, year: int,
    licensePlate: string, colour: string, rentalRate: int, status: Option<string>)

  /** `currentCar.status || "available"`: unset or empty means available. */
  function NewCarStatus(status: Option<string>): (s: string)
    ensures status.None? || status == Some("") ==> s == Available
    ensures status.Some? && status.value != "" ==> s == status.value
  {
    match status
    case None => Available
    case Some(v) => if v == "" then Available else v
  }

  datatype AddStep = InsertCar | RefreshCars

  datatype AddOutcome = AddOutcome(store: Store, saved: bool)

  /** Adding a car under the id the backend assigns. */
  function AddCar(st: Store, form: CarForm, id: Id, fail: Option<AddStep>): (r: AddOutcome)
    ensures fail == Some(InsertCar) || id in st.cars ==> r == AddOutcome(st, false)
    ensures fail != Some(InsertCar) && id !in st.cars ==>
      && r.store == st.(cars := r.store.cars)
      && r.store.cars.Keys == st.cars.Keys + {id}
      && (forall k | k in st.cars :: r.store.cars[k] == st.cars[k])
      && r.store.cars[id] == Car(id, form.locationId, form.model, form.make, form.year,
                                 form.licensePlate, form.colour, form.rentalRate, NewCarStatus(form.status))
      && (r.saved <==> fail.None?)
  {
    var car := Car(id, form.locationId, form.model, form.make, form.year,
                   form.licensePlate, form.colour, form.rentalRate, NewCarStatus(form.status));
    if fail == Some(InsertCar) then AddOutcome(st, false)
    else match Insert(st.cars, id, car)
      case None => AddOutcome(st, false)
      case Some(cars) =>
        assert fail.Some? ==> fail.value.RefreshCars?;
        AddOutcome(st.(cars := cars), fail != Some(RefreshCars))
  }

  datatype CarDeletion = CarDeletion(cars: seq<Car>, store: Store)

  /** Deleting a car: on success the row goes from the store and exactly the
      rows with that id go from the page's list, the rest kept in order; on
      failure nothing changes. */
  function DeleteCar(listed: seq<Car>, st: Store, id: Id, deleteOk: bool): (r: CarDeletion)
    ensures !deleteOk ==> r == CarDeletion(listed, st)
    ensures deleteOk ==>
      && r.store == st.(cars := st.cars - {id})
      && IsSubsequence(r.cars, listed)
      && forall c :: c in r.cars <==> c in listed && c.id != id
  {
    if deleteOk then CarDeletion(Keep(listed, (c: Car) => c.id != id), st.(cars := st.cars - {id}))
    else CarDeletion(listed, st)
  }
}

=== FILE: cascade.dfy ===
/**
  Deleting a customer's profile row, from the admin customers table or from
  the customer's own profile page. Both run the same sequence against the
  store: look up the customer's active rentals; if there are any, cancel them
  and then make their cars available; finally delete the profile row. The
  first failing call ends the sequence and the calls before it stay done.
  The sign-in identity is not part of the store and is never touched.
 */
module Cascade {
  import opened Schema
  import opened Lists

  /** The backend calls of the sequence, in order. */
  datatype CascadeStep = QueryActive | CancelRentals | FreeCars | DeleteProfile {
    /** The position of the call in the sequence. */
    function Index(): nat {
      match this
      case QueryActive => 0
      case CancelRentals => 1
      case FreeCars => 2
      case DeleteProfile => 3
    }
  }

  /** The rentals of customer `cid` with status "active". */
  function ActiveRentalsOf(st: Store, cid: Id): (ids: set<Id>)
    ensures forall rid :: rid in ids <==>
      rid in st.rentals && st.rentals[rid].customerId == cid && st.rentals[rid].status == Active
  {
    set rid | rid in st.rentals && st.rentals[rid].customerId == cid && st.rentals[rid].status == Active
  }

  /** The cars referenced by the rentals `rids`. */
  function CarsOf(st: Store, rids: set<Id>): (cars: set<Id>)
    ensures forall c :: c in cars <==> exists rid :: rid in rids && rid in st.rentals && st.rentals[rid].carId == c
  {
    set rid | rid in rids && rid in st.rentals :: st.rentals[rid].carId
  }

  /** Whether the call `s` is made at all: the two batch updates are skipped
      when the customer has no active rental. */
  predicate Reached(s: CascadeStep, active: set<Id>) {
    s == QueryActive || s == DeleteProfile || active != {}
  }

  /** The calls up to and including `s` all succeed (a skipped call cannot fail). */
  predicate SucceedsThrough(fail: Option<CascadeStep>, active: set<Id>, s: CascadeStep) {
    match fail
    case None => true
    case Some(f) => !Reached(f, active) || f.Index() > s.Index()
  }

  datatype CascadeOutcome = CascadeOutcome(store: Store, deleted: bool)

  /** The cascade for customer `cid`; `fail` names the call that fails, if it is made. */
  function DeleteCustomerCascade(st: Store, cid: Id, fail: Option<CascadeStep>): (r: CascadeOutcome)
    ensures var active := ActiveRentalsOf(st, cid);
      && (r.deleted <==> SucceedsThrough(fail, active, DeleteProfile))
      && r.store.customers == (if r.deleted then st.customers - {cid} else st.customers)
      && r.store.rentals ==
           (if active != {} && SucceedsThrough(fail, active, CancelRentals)
            then SetRentalStatus(st.rentals, active, Cancelled) else st.rentals)
      && r.store.cars ==
           (if active != {} && SucceedsThrough(fail, active, FreeCars)
            then SetCarStatus(st.cars, CarsOf(st, active), Available) else st.cars)
      && r.store.insurance == st.insurance
      && r.store.payments == st.payments
  {
    var active := ActiveRentalsOf(st, cid);
    if fail == Some(QueryActive) then CascadeOutcome(st, false)
    else if active != {} && fail == Some(CancelRentals) then CascadeOutcome(st, false)
    else
      var st1 := if active != {} then st.(rentals := SetRentalStatus(st.rentals, active, Cancelled)) else st;
      if active != {} && fail == Some(FreeCars) then CascadeOutcome(st1, false)
      else
        var st2 := if active != {} then st1.(cars := SetCarStatus(st.cars, CarsOf(st, active), Available)) else st1;
        if fail == Some(DeleteProfile) then CascadeOutcome(st2, false)
        else CascadeOutcome(st2.(customers := st.customers - {cid}), true)
  }

  /** With no active rental, no rental or car is written whatever happens. */
  lemma NoActiveRentalsNoWrites(st: Store, cid: Id, fail: Option<CascadeStep>)
    requires ActiveRentalsOf(st, cid) == {}
    ensures var r := DeleteCustomerCascade(st, cid, fail);
            r.store.rentals == st.rentals && r.store.cars == st.cars
  {
  }

  /** A completed cascade leaves the customer without a profile row and
      without an active rental; every rental it cancelled was one of the
      customer's active rentals and every car it freed was rented by one of
      them; all other rentals and cars are as they were. */
  lemma CompletedCascade(st: Store, cid: Id, fail: Option<CascadeStep>)
    requires DeleteCustomerCascade(st, cid, fail).deleted
    ensures var r := DeleteCustomerCascade(st, cid, fail);
            var active := ActiveRentalsOf(st, cid);
            && cid !in r.store.customers
            && ActiveRentalsOf(r.store, cid) == {}
            && (forall rid | rid in st.rentals ::
                  r.store.rentals[rid].status == (if rid in active then Cancelled else st.rentals[rid].status))
            && (forall rid | rid in st.rentals && rid !in active :: r.store.rentals[rid] == st.rentals[rid])
            && (forall c | c in st.cars ::
                  r.store.cars[c] == (if c in CarsOf(st, active) then st.cars[c].(status := Available) else st.cars[c]))
  {
    var r := DeleteCustomerCascade(st, cid, fail);
    var active := ActiveRentalsOf(st, cid);
    if active != {} {
      assert r.store.rentals == SetRentalStatus(st.rentals, active, Cancelled);
      forall rid | rid in r.store.rentals
        ensures !(r.store.rentals[rid].customerId == cid && r.store.rentals[rid].status == Active)
      {
      }
    }
  }

  /** A failure before the profile row is deleted leaves the row in place. */
  lemma FailureKeepsProfile(st: Store, cid: Id, fail: Option<CascadeStep>)
    requires !DeleteCustomerCascade(st, cid, fail).deleted
    ensures DeleteCustomerCascade(st, cid, fail).store.customers == st.customers
  {
  }

  /** When the car update fails, the rentals are already cancelled but their
      cars keep their status and the profile row stays. */
  lemma FreeCarsFailureIsPartial(st: Store, cid: Id)
    requires ActiveRentalsOf(st, cid) != {}
    ensures var r := DeleteCustomerCascade(st, cid, Some(FreeCars));
            && !r.deleted
            && r.store.rentals == SetRentalStatus(st.rentals, ActiveRentalsOf(st, cid), Cancelled)
            && r.store.cars == st.cars
            && r.store.customers == st.customers
  {
  }

  /** The admin customers table: on success the local list drops exactly the
      rows with the deleted id, keeping the rest in order; on failure it is
      unchanged. `confirming` is the customer whose confirmation dialog is
      shown; it is cleared whatever the outcome. */
  datatype AdminDeletion = AdminDeletion(customers: seq<Customer>, store: Store, confirming: Option<Id>)

  function AdminDeleteCustomer(customers: seq<Customer>, st: Store, id: Id, fail: Option<CascadeStep>): (r: AdminDeletion)
    ensures var c := DeleteCustomerCascade(st, id, fail);
      && r.store == c.store
      && (c.deleted ==> IsSubsequence(r.customers, customers)
                        && forall x :: x in r.customers <==> x in customers && x.id != id)
      && (!c.deleted ==> r.customers == customers)
      && r.confirming.None?
  {
    var c := DeleteCustomerCascade(st, id, fail);
    AdminDeletion(if c.deleted then Keep(customers, (x: Customer) => x.id != id) else customers, c.store, None)
  }

  /** The profile page's "Delete Account": the cascade keyed by the signed-in
      user; sign-out follows only a successful delete of the profile row, and
      on any failure the confirmation dialog is closed instead. */
  datatype AccountDeletion = AccountDeletion(store: Store, signedOut: bool, dialogOpen: bool)

  function DeleteAccount(st: Store, user: Option<Id>, dialogOpen: bool, fail: Option<CascadeStep>): (r: AccountDeletion)
    ensures user.None? ==> r == AccountDeletion(st, false, dialogOpen)
    ensures user.Some? ==>
      var c := DeleteCustomerCascade(st, user.value, fail);
      && r.store == c.store
      && (r.signedOut <==> c.deleted)
      && r.dialogOpen == (dialogOpen && c.deleted)
  {
    if user.None? then AccountDeletion(st, false, dialogOpen)
    else
      var c := DeleteCustomerCascade(st, user.value, fail);
      if c.deleted then AccountDeletion(c.store, true, dialogOpen)
      else AccountDeletion(c.store, false, false)
  }

  /** Self-service and admin deletion of the same customer have the same
      effect on the store. */
  lemma AccountDeletionMatchesAdmin(st: Store, u: Id, dialogOpen: bool, customers: seq<Customer>, fail: Option<CascadeStep>)
    ensures DeleteAccount(st, Some(u), dialogOpen, fail).store == AdminDeleteCustomer(customers, st, u, fail).store
  {
  }

  /** A signed-out user no longer has a profile row. */
  lemma SignOutOnlyAfterDelete(st: Store, user: Option<Id>, dialogOpen: bool, fail: Option<CascadeStep>)
    requires DeleteAccount(st, user, dialogOpen, fail).signedOut
    ensures user.Some? && user.value !in DeleteAccount(st, user, dialogOpen, fail).store.customers
  {
  }
}

=== FILE: consistency.dfy ===
/**
  The cross-table invariant the storefront relies on: a car is "rented" exactly
  when some rental of it is active, no car has two active rentals, and every
  active rental's car exists. The lemmas say which procedures keep it when
  they run to completion, and show the states a failure part-way through
  leaves behind.
 */
module Consistency {
  import opened Schema
  import opened Cascade
  import Wizard
  import Admin
  import Home

  /** Rental `rid` is active and is for car `car`. */
  ghost predicate ActiveOn(rentals: map<Id, Rental>, rid: Id, car: Id) {
    rid in rentals && rentals[rid].status == Active && rentals[rid].carId == car
  }

  ghost predicate ActiveCarsExist(rentals: map<Id, Rental>, cars: map<Id, Car>) {
    forall rid, c | ActiveOn(rentals, rid, c) :: c in cars
  }

  ghost predicate AtMostOneActive(rentals: map<Id, Rental>) {
    forall r1, r2, c | ActiveOn(rentals, r1, c) && ActiveOn(rentals, r2, c) :: r1 == r2
  }

  ghost predicate RentedIffActive(rentals: map<Id, Rental>, cars: map<Id, Car>) {
    forall c | c in cars :: cars[c].status == Rented <==> exists rid :: ActiveOn(rentals, rid, c)
  }

  /** Car `c` is marked rented but no active rental is for it. */
  ghost predicate RentedWithoutRental(rentals: map<Id, Rental>, cars: map<Id, Car>, c: Id) {
    c in cars && cars[c].status == Rented && !exists rid :: ActiveOn(rentals, rid, c)
  }

  /** The invariant concerns the rentals and cars tables only. */
  ghost predicate Consistent(st: Store) {
    && ActiveCarsExist(st.rentals, st.cars)
    && AtMostOneActive(st.rentals)
    && RentedIffActive(st.rentals, st.cars)
  }

  /** A completed customer deletion keeps the store consistent. */
  lemma CascadePreservesConsistency(st: Store, cid: Id, fail: Option<CascadeStep>)
    requires Consistent(st)
    requires DeleteCustomerCascade(st, cid, fail).deleted
    ensures Consistent(DeleteCustomerCascade(st, cid, fail).store)
  {
    var r := DeleteCustomerCascade(st, cid, fail).store;
    var active := ActiveRentalsOf(st, cid);
    var freed := CarsOf(st, active);
    if active != {} {
      assert r.rentals == SetRentalStatus(st.rentals, active, Cancelled);
      assert r.cars == SetCarStatus(st.cars, freed, Available);
      // an active rental after the cascade was active before and not cancelled
      forall rid, c | ActiveOn(r.rentals, rid, c)
        ensures ActiveOn(st.rentals, rid, c) && rid !in active
      {
        assert r.rentals[rid].status == Active;
      }
      forall r1, r2, c | ActiveOn(r.rentals, r1, c) && ActiveOn(r.rentals, r2, c)
        ensures r1 == r2
      {
        assert ActiveOn(st.rentals, r1, c) && ActiveOn(st.rentals, r2, c);
      }
      forall c | c in r.cars
        ensures r.cars[c].status == Rented <==> exists rid :: ActiveOn(r.rentals, rid, c)
      {
        if c in freed {
          var a :| a in active && a in st.rentals && st.rentals[a].carId == c;
          assert ActiveOn(st.rentals, a, c);
          assert r.cars[c].status == Available;
        } else {
          assert r.cars[c] == st.cars[c];
          if exists rid :: ActiveOn(st.rentals, rid, c) {
            var rid :| ActiveOn(st.rentals, rid, c);
            assert rid !in active;
            assert ActiveOn(r.rentals, rid, c);
          }
        }
      }
    }
  }

  /** If the car update of a customer deletion fails, a car the customer had
      rented is left "rented" with no active rental. */
  lemma CascadeFreeCarsFailureBreaksConsistency(st: Store, cid: Id)
    requires Consistent(st)
    requires ActiveRentalsOf(st, cid) != {}
    ensures var r := DeleteCustomerCascade(st, cid, Some(FreeCars)).store;
            forall a | a in ActiveRentalsOf(st, cid) :: RentedWithoutRental(r.rentals, r.cars, st.rentals[a].carId)
    ensures !Consistent(DeleteCustomerCascade(st, cid, Some(FreeCars)).store)
  {
    var r := DeleteCustomerCascade(st, cid, Some(FreeCars)).store;
    var active := ActiveRentalsOf(st, cid);
    forall a | a in active
      ensures RentedWithoutRental(r.rentals, r.cars, st.rentals[a].carId)
    {
      var c := st.rentals[a].carId;
      assert ActiveOn(st.rentals, a, c);
      assert r.cars[c].status == Rented;
      assert forall rid | ActiveOn(r.rentals, rid, c) :: ActiveOn(st.rentals, rid, c) && rid !in active;
    }
    var a :| a in active;
    assert RentedWithoutRental(r.rentals, r.cars, st.rentals[a].carId);
  }

  /** Adding an active rental for an available car and marking that car
      rented keeps the tables consistent. */
  lemma BookingKeepsTablesConsistent(rentals: map<Id, Rental>, cars: map<Id, Car>, row: Rental)
    requires ActiveCarsExist(rentals, cars) && AtMostOneActive(rentals) && RentedIffActive(rentals, cars)
    requires row.carId in cars && cars[row.carId].status == Available
    requires row.id !in rentals && row.status == Active
    ensures var rentals', cars' := rentals[row.id := row], SetCarStatus(cars, {row.carId}, Rented);
      ActiveCarsExist(rentals', cars') && AtMostOneActive(rentals') && RentedIffActive(rentals', cars')
  {
    var rentals', cars' := rentals[row.id := row], SetCarStatus(cars, {row.carId}, Rented);
    assert forall rid, c | ActiveOn(rentals', rid, c) :: rid == row.id || ActiveOn(rentals, rid, c);
    assert ActiveOn(rentals', row.id, row.carId);
    forall d | d in cars' && d != row.carId
      ensures cars'[d].status == Rented <==> exists rid :: ActiveOn(rentals', rid, d)
    {
      if exists rid :: ActiveOn(rentals, rid, d) {
        var rid :| ActiveOn(rentals, rid, d);
        assert ActiveOn(rentals', rid, d);
      }
    }
  }

  /** A fully successful booking of an available car keeps the store consistent. */
  lemma SubmitPreservesConsistency(m: Wizard.Modal, st: Store, user: Id, car: Car, ids: Wizard.NewIds, now: int)
    requires Consistent(st)
    requires m.startDate.Some? && m.endDate.Some?
    requires car.id in st.cars && st.cars[car.id].status == Available
    requires ids.rental !in st.rentals && ids.insurance !in st.insurance && ids.payment !in st.payments
    ensures Consistent(Wizard.Submit(m, st, Some(user), car, ids, now, None).store)
  {
    var r := Wizard.Submit(m, st, Some(user), car, ids, now, None).store;
    assert forall k | 0 <= k < 4 :: !Wizard.WriteFails(st, ids, None, k);
    var row := Rental(ids.rental, car.id, user, m.startDate.value, m.endDate.value, Active);
    assert r.rentals == st.rentals[ids.rental := row];
    assert r.cars == SetCarStatus(st.cars, {car.id}, Rented);
    BookingKeepsTablesConsistent(st.rentals, st.cars, row);
  }

  /** A booking that fails after the rental insert leaves an active rental
      whose car is still "available". */
  lemma SubmitFailureAfterRentalBreaksConsistency(m: Wizard.Modal, st: Store, user: Id, car: Car,
                                                  ids: Wizard.NewIds, now: int, fail: Wizard.SubmitStep)
    requires m.startDate.Some? && m.endDate.Some?
    requires car.id in st.cars && st.cars[car.id].status == Available
    requires ids.rental !in st.rentals && ids.insurance !in st.insurance && ids.payment !in st.payments
    requires fail != Wizard.InsertRental
    ensures var r := Wizard.Submit(m, st, Some(user), car, ids, now, Some(fail)).store;
            ActiveOn(r.rentals, ids.rental, car.id) && r.cars[car.id].status == Available
    ensures !Consistent(Wizard.Submit(m, st, Some(user), car, ids, now, Some(fail)).store)
  {
    var out := Wizard.Submit(m, st, Some(user), car, ids, now, Some(fail));
    assert !Wizard.WriteFails(st, ids, Some(fail), 0);
    assert out.writes < 4 by {
      var k := if fail == Wizard.InsertInsurance then 1 else if fail == Wizard.InsertPayment then 2 else 3;
      assert Wizard.WriteFails(st, ids, Some(fail), k);
    }
    assert ActiveOn(out.store.rentals, ids.rental, car.id);
    assert out.store.cars[car.id].status == Available;
  }

  /** An admin edit that completes or cancels an active rental keeps the
      store consistent, provided the page's list shows it as active. */
  lemma ClosingEditPreservesConsistency(st: Store, listed: seq<Rental>, edit: Rental)
    requires Consistent(st)
    requires edit.id in st.rentals && st.rentals[edit.id].status == Active
    requires edit.carId == st.rentals[edit.id].carId
    requires Admin.PreviousStatus(listed, edit.id) == Some(Active)
    requires edit.status == Completed || edit.status == Cancelled
    ensures Consistent(Admin.UpdateRental(st, listed, edit, None).store)
  {
    var r := Admin.UpdateRental(st, listed, edit, None).store;
    var c := edit.carId;
    assert r.cars == SetCarStatus(st.cars, {c}, Available);
    assert forall rid, d | ActiveOn(r.rentals, rid, d) :: ActiveOn(st.rentals, rid, d) && rid != edit.id;
    assert ActiveOn(st.rentals, edit.id, c);
    forall d | d in r.cars && d != c
      ensures r.cars[d].status == Rented <==> exists rid :: ActiveOn(r.rentals, rid, d)
    {
      if exists rid :: ActiveOn(st.rentals, rid, d) {
        var rid :| ActiveOn(st.rentals, rid, d);
        assert ActiveOn(r.rentals, rid, d);
      }
    }
  }

  /** Re-activating a cancelled rental of an available car leaves an active
      rental whose car is not "rented": the edit never writes the car. */
  lemma ReactivatingEditBreaksConsistency(st: Store, listed: seq<Rental>, edit: Rental, fail: Option<Admin.EditStep>)
    requires edit.id in st.rentals
    requires edit.carId in st.cars && st.cars[edit.carId].status == Available
    requires edit.carId == st.rentals[edit.id].carId && edit.status == Active
    requires fail != Some(Admin.WriteRental)
    ensures var r := Admin.UpdateRental(st, listed, edit, fail).store;
            ActiveOn(r.rentals, edit.id, edit.carId) && r.cars[edit.carId].status == Available
    ensures !Consistent(Admin.UpdateRental(st, listed, edit, fail).store)
  {
    var r := Admin.UpdateRental(st, listed, edit, fail).store;
    Admin.DateOnlyOrReactivatingEditKeepsCar(st, listed, edit, fail);
    assert ActiveOn(r.rentals, edit.id, edit.carId);
  }

  /** After a completed customer deletion every car freed by it is listed
      among the available cars on the home page. */
  lemma FreedCarsBecomeAvailable(st: Store, cid: Id, fail: Option<CascadeStep>)
    requires DeleteCustomerCascade(st, cid, fail).deleted
    ensures forall c | c in CarsOf(st, ActiveRentalsOf(st, cid)) && c in st.cars ::
      c in Home.AvailableCars(DeleteCustomerCascade(st, cid, fail).store)
  {
  }

  /** After a successful booking the car no longer appears among the
      available cars on the home page. */
  lemma BookedCarLeavesAvailableList(m: Wizard.Modal, st: Store, user: Id, car: Car, ids: Wizard.NewIds, now: int)
    requires m.startDate.Some? && m.endDate.Some?
    requires car.id in st.cars
    requires Wizard.Submit(m, st, Some(user), car, ids, now, None).writes == 4
    ensures car.id !in Home.AvailableCars(Wizard.Submit(m, st, Some(user), car, ids, now, None).store)
  {
  }

  /** Adding a car whose status is left unset (or set to "available") keeps
      the store consistent. */
  lemma AddingAvailableCarPreservesConsistency(st: Store, form: Admin.CarForm, id: Id, fail: Option<Admin.AddStep>)
    requires Consistent(st)
    requires Admin.NewCarStatus(form.status) == Available
    ensures Consistent(Admin.AddCar(st, form, id, fail).store)
  {
    var r := Admin.AddCar(st, form, id, fail).store;
    if fail != Some(Admin.InsertCar) && id !in st.cars {
      forall c | c in r.cars
        ensures r.cars[c].status == Rented <==> exists rid :: ActiveOn(r.rentals, rid, c)
      {
        if c == id {
          assert forall rid | ActiveOn(r.rentals, rid, c) :: c in st.cars;
        }
      }
    }
  }

  /** The add-car form also offers "rented": a car added that way is rented
      with no rental behind it. */
  lemma AddingRentedCarBreaksConsistency(st: Store, form: Admin.CarForm, id: Id, fail: Option<Admin.AddStep>)
    requires Consistent(st)
    requires form.status == Some(Rented)
    requires id !in st.cars && fail != Some(Admin.InsertCar)
    ensures RentedWithoutRental(Admin.AddCar(st, form, id, fail).store.rentals, Admin.AddCar(st, form, id, fail).store.cars, id)
    ensures !Consistent(Admin.AddCar(st, form, id, fail).store)
  {
    var r := Admin.AddCar(st, form, id, fail).store;
    assert r.cars[id].status == Rented;
    assert forall rid | ActiveOn(r.rentals, rid, id) :: id in st.cars;
    assert RentedWithoutRental(r.rentals, r.cars, id);
  }

  /** Deleting a car that has an active rental leaves that rental pointing at
      a car that no longer exists; the page does not check for it. */
  lemma DeletingRentedCarBreaksConsistency(listed: seq<Car>, st: Store, rid: Id)
    requires rid in st.rentals && st.rentals[rid].status == Active
    ensures var r := Admin.DeleteCar(listed, st, st.rentals[rid].carId, true).store;
            ActiveOn(r.rentals, rid, st.rentals[rid].carId) && st.rentals[rid].carId !in r.cars
    ensures !Consistent(Admin.DeleteCar(listed, st, st.rentals[rid].carId, true).store)
  {
    var r := Admin.DeleteCar(listed, st, st.rentals[rid].carId, true).store;
    assert ActiveOn(r.rentals, rid, st.rentals[rid].carId);
  }

  /** After a successful booking the new rental is among the renter's
      current rentals on the home page. */
  lemma BookingShowsInCurrentRentals(m: Wizard.Modal, st: Store, user: Id, car: Car, ids: Wizard.NewIds, now: int)
    requires m.startDate.Some? && m.endDate.Some?
    requires ids.rental !in st.rentals && ids.insurance !in st.insurance && ids.payment !in st.payments
    ensures var r := Wizard.Submit(m, st, Some(user), car, ids, now, None).store;
            && ids.rental in Home.CurrentRentals(r, user)
            && Home.CurrentRentals(r, user)[ids.rental].carId == car.id
  {
    assert forall k | 0 <= k < 4 :: !Wizard.WriteFails(st, ids, None, k);
  }

  /** After a completed deletion the customer has no current rental left,
      and every other customer's current rentals are as before. */
  lemma DeletionEmptiesCurrentRentals(st: Store, cid: Id, fail: Option<CascadeStep>)
    requires DeleteCustomerCascade(st, cid, fail).deleted
    ensures var r := DeleteCustomerCascade(st, cid, fail).store;
            && Home.CurrentRentals(r, cid) == map[]
            && forall u | u != cid :: Home.CurrentRentals(r, u) == Home.CurrentRentals(st, u)
  {
    var r := DeleteCustomerCascade(st, cid, fail).store;
    CompletedCascade(st, cid, fail);
    assert Home.CurrentRentals(r, cid).Keys == {};
    forall u | u != cid
      ensures Home.CurrentRentals(r, u) == Home.CurrentRentals(st, u)
    {
      assert Home.CurrentRentals(r, u).Keys == Home.CurrentRentals(st, u).Keys;
    }
  }
}

=== FILE: home.dfy ===
/**
  The customer home page: the user's current rentals, the cars available to
  rent, and the search box that narrows the available cars.
 */
module Home {
  import opened Schema
  import opened Text
  import opened Lists

  /** `eq("customer_id", user).eq("status", "active")` on the rentals table. */
  function CurrentRentals(st: Store, user: Id): (r: map<Id, Rental>)
    ensures forall rid :: rid in r <==>
      rid in st.rentals && st.rentals[rid].customerId == user && st.rentals[rid].status == Active
    ensures forall rid | rid in r :: r[rid] == st.rentals[rid]
  {
    map rid | rid in st.rentals && st.rentals[rid].customerId == user && st.rentals[rid].status == Active
      :: st.rentals[rid]
  }

  /** `eq("status", "available")` on the cars table. */
  function AvailableCars(st: Store): (r: map<Id, Car>)
    ensures forall id :: id in r <==> id in st.cars && st.cars[id].status == Available
    ensures forall id | id in r :: r[id] == st.cars[id]
  {
    map id | id in st.cars && st.cars[id].status == Available :: st.cars[id]
  }

  /** A car matches the search term when its make, model or colour, lowered,
      includes the lowered term. */
  predicate Matches(car: Car, term: string) {
    var t := ToLower(term);
    Contains(ToLower(car.make), t) || Contains(ToLower(car.model), t) || Contains(ToLower(car.colour), t)
  }

  /** The cars shown under the search box. */
  function FilterCars(cars: seq<Car>, term: string): (shown: seq<Car>)
    ensures IsSubsequence(shown, cars)
    ensures forall c :: c in shown <==> c in cars && Matches(c, term)
  {
    Keep(cars, (c: Car) => Matches(c, term))
  }

  /** A car matches exactly when the lowered term occurs somewhere in its
      lowered make, model or colour. */
  lemma MatchesIffOccurs(car: Car, term: string)
    ensures Matches(car, term) <==>
      || (exists i :: OccursAt(ToLower(car.make), ToLower(term), i))
      || (exists i :: OccursAt(ToLower(car.model), ToLower(term), i))
      || (exists i :: OccursAt(ToLower(car.colour), ToLower(term), i))
  {
    assert Matches(car, term) <==>
      || Contains(ToLower(car.make), ToLower(term))
      || Contains(ToLower(car.model), ToLower(term))
      || Contains(ToLower(car.colour), ToLower(term));
    ContainsIffOccurs(ToLower(car.make), ToLower(term));
    ContainsIffOccurs(ToLower(car.model), ToLower(term));
    ContainsIffOccurs(ToLower(car.colour), ToLower(term));
  }

  /** The search ignores the case of the term. */
  lemma SearchIgnoresCase(cars: seq<Car>, term: string)
    ensures FilterCars(cars, ToLower(term)) == FilterCars(cars, term)
  {
    ToLowerIdempotent(term);
    KeepAgree(cars, (c: Car) => Matches(c, ToLower(term)), (c: Car) => Matches(c, term));
  }

  /** An empty term (the initial state, and the state after "Clear") shows
      every available car, in order. */
  lemma EmptyTermShowsAll(cars: seq<Car>)
    ensures FilterCars(cars, "") == cars
  {
    forall i | 0 <= i < |cars|
      ensures Matches(cars[i], "")
    {
      ContainsEmpty(ToLower(cars[i].make));
    }
    KeepAll(cars, (c: Car) => Matches(c, ""));
  }
}

=== FILE: pricing.dfy ===
/**
  The booking wizard's price calculation: the number of rental days between
  the chosen start and end timestamps, the insurance cost of the chosen tier
  and the total charged. All quantities are integers; timestamps are
  milliseconds.
 */
module Pricing {
  import opened Schema

  /** Milliseconds in a day: 1000 * 60 * 60 * 24. */
  const DayMs: int := 86_400_000

  /** Daily insurance rates of the three tiers offered. */
  const BasicRate: int := 15
  const StandardRate: int := 25
  const PremiumRate: int := 40

  /** `Math.ceil(a / b)` for a positive divisor: the least `q` with `a <= q * b`. */
  function CeilDiv(a: int, b: int): (q: int)
    requires b > 0
    ensures (q - 1) * b < a <= q * b
  {
    var f := (-a) / b;
    var m := (-a) % b;
    assert -a == f * b + m;
    assert (-f - 1) * b == -(f * b) - b;
    -f
  }

  /** A product with a positive factor is positive only if the other is. */
  lemma PositiveCofactor(x: int, b: int)
    requires b > 0 && x * b > 0
    ensures x > 0
  {
  }

  /** The bounds of `CeilDiv` pin its result down: there is one such `q`. */
  lemma {:induction false} CeilDivUnique(a: int, b: int, q: int)
    requires b > 0
    requires (q - 1) * b < a <= q * b
    ensures CeilDiv(a, b) == q
  {
    var c := CeilDiv(a, b);
    assert (c - q + 1) * b == c * b - (q - 1) * b;
    PositiveCofactor(c - q + 1, b);
    assert (q - c + 1) * b == q * b - (c - 1) * b;
    PositiveCofactor(q - c + 1, b);
  }

  /** The day count of a booking: zero unless both dates are chosen, otherwise
      the elapsed time rounded up to whole days. No lower bound is applied, so
      an end at or before the start gives zero or a negative count. */
  function Days(start: Option<int>, end: Option<int>): (d: int)
    ensures start.None? || end.None? ==> d == 0
    ensures start.Some? && end.Some? ==>
      (d - 1) * DayMs < end.value - start.value <= d * DayMs
  {
    if start.Some? && end.Some? then CeilDiv(end.value - start.value, DayMs) else 0
  }

  /** The daily insurance rate of a tier name; any name other than "basic"
      and "standard" is charged the premium rate. */
  function TierRate(tier: string): (rate: int)
    ensures tier == "basic" ==> rate == BasicRate
    ensures tier == "standard" ==> rate == StandardRate
    ensures tier != "basic" && tier != "standard" ==> rate == PremiumRate
  {
    if tier == "basic" then 15 else if tier == "standard" then 25 else 40
  }

  function InsuranceCost(tier: string, days: int): int {
    TierRate(tier) * days
  }

  function TotalCost(days: int, rentalRate: int, tier: string): int {
    days * rentalRate + InsuranceCost(tier, days)
  }

  /** The total is the day count times the sum of the car's daily rate and
      the tier's daily insurance rate. */
  lemma TotalIsDailySum(days: int, rentalRate: int, tier: string)
    ensures TotalCost(days, rentalRate, tier) == days * (rentalRate + TierRate(tier))
    ensures InsuranceCost(tier, days) == days * TierRate(tier)
  {
  }

  /** A period of exactly `k` whole days is charged for `k` days. */
  lemma WholeDays(start: int, k: int)
    ensures Days(Some(start), Some(start + k * DayMs)) == k
  {
    CeilDivUnique(k * DayMs, DayMs, k);
  }

  /** Any part of a day started is charged as a whole day. */
  lemma PartDayRoundsUp(start: int, k: int, extra: int)
    requires 0 < extra < DayMs
    ensures Days(Some(start), Some(start + k * DayMs + extra)) == k + 1
  {
    CeilDivUnique(k * DayMs + extra, DayMs, k + 1);
  }

  /** An end date at or before the start date yields no positive day count
      and so no positive charge. */
  lemma NoPositiveChargeWithoutForwardDates(start: int, end: int, rentalRate: int, tier: string)
    requires end <= start
    requires rentalRate >= 0
    ensures Days(Some(start), Some(end)) <= 0
    ensures InsuranceCost(tier, Days(Some(start), Some(end))) <= 0
    ensures TotalCost(Days(Some(start), Some(end)), rentalRate, tier) <= 0
  {
    var d := Days(Some(start), Some(end));
    assert (1 - d) * DayMs == DayMs - d * DayMs;
    PositiveCofactor(1 - d, DayMs);
    TotalIsDailySum(d, rentalRate, tier);
    assert d * (rentalRate + TierRate(tier)) <= 0 by {
      assert -d >= 0 && rentalRate + TierRate(tier) >= 0;
      assert (-d) * (rentalRate + TierRate(tier)) >= 0;
    }
  }

  /** The worked example: basic cover for three days at 50 a day costs 45 for
      insurance and 195 in all. */
  lemma BasicThreeDaysExample(start: int)
    ensures Days(Some(start), Some(start + 3 * DayMs)) == 3
    ensures InsuranceCost("basic", 3) == 45
    ensures TotalCost(3, 50, "basic") == 195
  {
    WholeDays(start, 3);
  }
}

=== FILE: profile.dfy ===
/**
  The profile page: loading the signed-in user's row into the form and
  saving the form back. The form holds a string for each of the nine
  profile fields; the page does no validation of its own.
 */
module ProfilePage {
  import opened Schema

  /** A form with a value for every profile field. */
  predicate IsForm(form: Profile) {
    forall f :: f in form
  }

  /** The form the page starts with: every field empty. */
  function EmptyForm(): (form: Profile)
    ensures IsForm(form) && forall f :: form[f] == ""
  {
    AllFieldsListed();
    map f | f in AllFields :: ""
  }

  /** Loading a fetched row: each null field shows as "". Without a row the
      form is left as it was. */
  function Load(form: Profile, fetched: Option<Customer>): (r: Profile)
    ensures fetched.None? ==> r == form
    ensures fetched.Some? ==>
      && IsForm(r)
      && forall f :: r[f] == if f in fetched.value.profile then fetched.value.profile[f] else ""
  {
    AllFieldsListed();
    match fetched
    case None => form
    case Some(c) => map f | f in AllFields :: if f in c.profile then c.profile[f] else ""
  }

  /** Saving: upsert the form's fields into the row keyed by the user's id. */
  function Save(st: Store, user: Option<Id>, form: Profile, upsertOk: bool): (r: Store)
    ensures user.None? || !upsertOk ==> r == st
    ensures user.Some? && upsertOk ==>
      && r == st.(customers := r.customers)
      && r.customers.Keys == st.customers.Keys + {user.value}
      && (forall f | f in form :: f in r.customers[user.value].profile && r.customers[user.value].profile[f] == form[f])
      && (IsForm(form) ==> r.customers[user.value].profile == form)
      && forall k | k in st.customers && k != user.value :: r.customers[k] == st.customers[k]
  {
    if user.Some? && upsertOk then
      var saved := st.(customers := UpsertProfile(st.customers, user.value, form));
      if IsForm(form) then UpsertFullDraft(st.customers, user.value, form); saved else saved
    else st
  }

  /** Saved values come back unchanged on the next load. */
  lemma {:induction false} SaveThenLoad(st: Store, u: Id, form: Profile, before: Profile)
    requires IsForm(form)
    ensures Load(before, FetchCustomer(Save(st, Some(u), form, true), Some(u), true)) == form
  {
    var loaded := Load(before, FetchCustomer(Save(st, Some(u), form, true), Some(u), true));
    assert loaded.Keys == form.Keys;
  }

  /** A load followed by a save replaces every null field of the row by ""
      and keeps every other field. */
  lemma LoadThenSaveNormalisesNulls(st: Store, u: Id)
    requires u in st.customers
    ensures var saved := Save(st, Some(u), Load(EmptyForm(), FetchCustomer(st, Some(u), true)), true);
            var p := st.customers[u].profile;
            forall f :: saved.customers[u].profile[f] == if f in p then p[f] else ""
  {
  }
}

=== FILE: schema.dfy ===
/**
  The rows of the hosted relational backend (cars, customers, rentals,
  insurance, payments) and the backend itself, modelled as an abstract store:
  one map from row id to row per table. Timestamps are integer milliseconds,
  rates and amounts are integers. `created_at` is left out: the backend sets
  it and the application only uses it to order lists it re-fetches.
 */
module Schema {

  type Id = string

  datatype Option<T> = None | Some(value: T)

  // Car statuses
  const Available := "available"
  const Rented := "rented"
  const Maintenance := "maintenance"

  // Rental statuses
  const Active := "active"
  const Completed := "completed"
  const Cancelled := "cancelled"

  /** The nullable text columns of a customer profile. */
  datatype Field =
    | FirstName | LastName | LicenceNumber | AddressLine1 | AddressLine2
    | City | County | Postcode | DateOfBirth

  const AllFields: seq<Field> :=
    [FirstName, LastName, LicenceNumber, AddressLine1, AddressLine2, City, County, Postcode, DateOfBirth]

  /** `AllFields` lists every field. */
  lemma AllFieldsListed()
    ensures forall f :: f in AllFields
  {
    forall f
      ensures f in AllFields
    {
      match f
      case FirstName => assert AllFields[0] == f;
      case LastName => assert AllFields[1] == f;
      case LicenceNumber => assert AllFields[2] == f;
      case AddressLine1 => assert AllFields[3] == f;
      case AddressLine2 => assert AllFields[4] == f;
      case City => assert AllFields[5] == f;
      case County => assert AllFields[6] == f;
      case Postcode => assert AllFields[7] == f;
      case DateOfBirth => assert AllFields[8] == f;
    }
  }

  /** A profile: the value of each field that is set; a field missing from the
      map is null (in a row) or undefined (in a form draft). */
  type Profile = map<Field, string>

  datatype Car = Car(
    id: Id, locationId: Id, model: string, make: string, year: int,
    licensePlate: string, colour: string, rentalRate: int, status: string)

  datatype Customer = Customer(id: Id, profile: Profile, admin: bool)

  datatype Rental = Rental(
    id: Id, carId: Id, customerId: Id, startDate: int, endDate: int, status: string)

  datatype Insurance = Insurance(
    id: Id, rentalId: Id, kind: string, cost: int, startDate: int, endDate: int)

  datatype Payment = Payment(
    id: Id, rentalId: Id, amount: int, date: int, payMethod: string, status: string)

  datatype Store = Store(
    cars: map<Id, Car>,
    customers: map<Id, Customer>,
    rentals: map<Id, Rental>,
    insurance: map<Id, Insurance>,
    payments: map<Id, Payment>)

  /** An insert into a table: refused when the primary key is already taken. */
  function Insert<T>(table: map<Id, T>, id: Id, row: T): (r: Option<map<Id, T>>)
    ensures r.Some? <==> id !in table
    ensures r.Some? ==> r.value.Keys == table.Keys + {id} && r.value[id] == row
    ensures r.Some? ==> forall k | k in table :: r.value[k] == table[k]
  {
    if id in table then None else Some(table[id := row])
  }

  /** `update(...).in("id", ids)` on any table: every row whose id is listed
      is rewritten by `change`; ids with no row are ignored. */
  function UpdateIn<T>(rows: map<Id, T>, ids: set<Id>, change: T -> T): (r: map<Id, T>)
    ensures r.Keys == rows.Keys
    ensures forall k | k in rows && k in ids :: r[k] == change(rows[k])
    ensures forall k | k in rows && k !in ids :: r[k] == rows[k]
  {
    map k | k in rows :: if k in ids then change(rows[k]) else rows[k]
  }

  /** `update({ status }).in("id", ids)` on the cars table. */
  function SetCarStatus(cars: map<Id, Car>, ids: set<Id>, status: string): (r: map<Id, Car>)
    ensures r.Keys == cars.Keys
    ensures forall k | k in cars :: r[k] == if k in ids then cars[k].(status := status) else cars[k]
  {
    UpdateIn(cars, ids, (c: Car) => c.(status := status))
  }

  /** `update({ status }).in("id", ids)` on the rentals table. */
  function SetRentalStatus(rentals: map<Id, Rental>, ids: set<Id>, status: string): (r: map<Id, Rental>)
    ensures r.Keys == rentals.Keys
    ensures forall k | k in rentals :: r[k] == if k in ids then rentals[k].(status := status) else rentals[k]
  {
    UpdateIn(rentals, ids, (x: Rental) => x.(status := status))
  }

  /** `select("*").eq("id", id).single()` on the customers table: absent when
      there is no signed-in user, the read fails, or no row exists. */
  function FetchCustomer(st: Store, user: Option<Id>, readOk: bool): (c: Option<Customer>)
    ensures c.Some? ==> user.Some? && user.value in st.customers && c.value == st.customers[user.value]
    ensures c.None? ==> user.None? || !readOk || user.value !in st.customers
  {
    if user.Some? && readOk && user.value in st.customers then Some(st.customers[user.value]) else None
  }

  /** `upsert({ id, ...fields })` on the customers table: the columns sent
      take the draft's values and every column not sent keeps its stored
      value (a new row starts with them all null); an existing row keeps its
      admin flag; for a new row the column default is not part of this
      model and is taken to be "not an admin". */
  function UpsertProfile(customers: map<Id, Customer>, id: Id, profile: Profile): (r: map<Id, Customer>)
    ensures r.Keys == customers.Keys + {id}
    ensures r[id].id == id
    ensures forall f | f in profile :: f in r[id].profile && r[id].profile[f] == profile[f]
    ensures forall f | f !in profile ::
      && (f in r[id].profile <==> id in customers && f in customers[id].profile)
      && (f in r[id].profile ==> r[id].profile[f] == customers[id].profile[f])
    ensures r[id].admin == (id in customers && customers[id].admin)
    ensures forall k | k in customers && k != id :: r[k] == customers[k]
  {
    var stored := if id in customers then customers[id].profile else map[];
    var admin := if id in customers then customers[id].admin else false;
    customers[id := Customer(id, stored + profile, admin)]
  }

  /** An upsert of a draft carrying every field replaces the whole profile. */
  lemma UpsertFullDraft(customers: map<Id, Customer>, id: Id, profile: Profile)
    requires forall f :: f in profile
    ensures UpsertProfile(customers, id, profile)[id].profile == profile
  {
    var p := UpsertProfile(customers, id, profile)[id].profile;
    assert p.Keys == profile.Keys;
  }
}

/**
  `Array.prototype.filter`: the order-preserving selection used for the
  search results and for dropping a deleted row from a page's local list.
 */
module Lists {

  /** `a` is `b` with some elements left out, the rest kept in order. */
  predicate IsSubsequence<T(==)>(a: seq<T>, b: seq<T>)
    decreases |b|
  {
    if a == [] then true
    else if b == [] then false
    else (a[0] == b[0] && IsSubsequence(a[1..], b[1..])) || IsSubsequence(a, b[1..])
  }

  /** `xs.filter(p)` */
  function Keep<T(==,!new)>(xs: seq<T>, p: T -> bool): (r: seq<T>)
    ensures IsSubsequence(r, xs)
    ensures forall x :: x in r <==> x in xs && p(x)
    ensures forall x :: multiset(r)[x] == if p(x) then multiset(xs)[x] else 0
  {
    if xs == [] then []
    else
      var rest := Keep(xs[1..], p);
      assert xs == [xs[0]] + xs[1..];
      if p(xs[0]) then
        assert ([xs[0]] + rest)[1..] == rest;
        [xs[0]] + rest
      else rest
  }

  /** Filtering with two tests that agree on every element gives the same list. */
  lemma {:induction false} KeepAgree<T(!new)>(xs: seq<T>, p: T -> bool, q: T -> bool)
    requires forall i | 0 <= i < |xs| :: p(xs[i]) == q(xs[i])
    ensures Keep(xs, p) == Keep(xs, q)
  {
    if xs != [] {
      KeepAgree(xs[1..], p, q);
    }
  }

  /** Filtering with a test every element passes returns the list itself. */
  lemma {:induction false} KeepAll<T(!new)>(xs: seq<T>, p: T -> bool)
    requires forall i | 0 <= i < |xs| :: p(xs[i])
    ensures Keep(xs, p) == xs
  {
    if xs != [] {
      KeepAll(xs[1..], p);
    }
  }
}

=== FILE: text.dfy ===
/**
  The JavaScript string primitives the storefront's business logic relies on:
  `trim()` (and its truthiness test), `includes()` and `toLowerCase()`.
  Strings are `seq<char>`.
 */
module Text {

  /** The characters `String.prototype.trim` removes: ECMAScript WhiteSpace
      (tab, vertical tab, form feed, space, no-break space, byte-order mark and
      the Unicode space separators) and LineTerminator. */
  predicate IsWhitespace(c: char) {
    || c == '\t' || c == '\n' || c == '\U{000B}' || c == '\U{000C}' || c == '\r' || c == ' '
    || c == '\U{00A0}' || c == '\U{1680}' || ('\U{2000}' <= c <= '\U{200A}')
    || c == '\U{2028}' || c == '\U{2029}' || c == '\U{202F}' || c == '\U{205F}'
    || c == '\U{3000}' || c == '\U{FEFF}'
  }

  /** Every character of `s` is whitespace (vacuously true of ""). */
  predicate IsBlank(s: string) {
    forall i | 0 <= i < |s| :: IsWhitespace(s[i])
  }

  /** `s` with its leading whitespace removed: the longest suffix of `s` whose
      removed prefix is all whitespace. */
  function TrimStart(s: string): (r: string)
    ensures |r| <= |s| && r == s[|s| - |r|..]
    ensures IsBlank(s[..|s| - |r|])
    ensures r != [] ==> !IsWhitespace(r[0])
  {
    if |s| > 0 && IsWhitespace(s[0]) then TrimStart(s[1..]) else s
  }

  /** `s` with its trailing whitespace removed. */
  function TrimEnd(s: string): (r: string)
    ensures |r| <= |s| && r == s[..|r|]
    ensures IsBlank(s[|r|..])
    ensures r != [] ==> !IsWhitespace(r[|r| - 1])
  {
    if |s| > 0 && IsWhitespace(s[|s| - 1]) then TrimEnd(s[..|s| - 1]) else s
  }

  /** `s.trim()` */
  function Trim(s: string): string {
    TrimEnd(TrimStart(s))
  }

  /** The JavaScript truthiness of `s.trim()`: the trimmed string is not "",
      which by `TrimEmptyIffBlank` means `s` is not blank. */
  predicate HasText(s: string) {
    !IsBlank(s)
  }

  /** `trim()` yields "" exactly for the blank strings. */
  lemma {:induction false} TrimEmptyIffBlank(s: string)
    ensures Trim(s) == "" <==> IsBlank(s)
  {
    var t := TrimStart(s);
    if !IsBlank(s) {
      var i :| 0 <= i < |s| && !IsWhitespace(s[i]);
      var prefix := s[..|s| - |t|];
      assert forall j | 0 <= j < |prefix| :: prefix[j] == s[j];
    }
  }

  /** So `HasText` is the truthiness of `trim()`. */
  lemma HasTextIffTrimmedNonEmpty(s: string)
    ensures HasText(s) <==> Trim(s) != ""
  {
    TrimEmptyIffBlank(s);
  }

  /** `sub` occurs in `s` starting at index `i`. */
  predicate OccursAt(s: string, sub: string, i: int) {
    0 <= i && i + |sub| <= |s| && s[i..i + |sub|] == sub
  }

  /** `s.includes(sub)`, computed by scanning `s` from the left. */
  function Contains(s: string, sub: string): (b: bool)
    decreases |s|
  {
    if |sub| > |s| then false
    else if s[..|sub|] == sub then true
    else Contains(s[1..], sub)
  }

  /** The scan agrees with the definition of a substring occurrence. */
  lemma {:induction false} ContainsIffOccurs(s: string, sub: string)
    ensures Contains(s, sub) <==> exists i :: OccursAt(s, sub, i)
    decreases |s|
  {
    if |sub| > |s| {
      assert forall i :: !OccursAt(s, sub, i);
    } else if s[..|sub|] == sub {
      assert OccursAt(s, sub, 0);
    } else {
      ContainsIffOccurs(s[1..], sub);
      if Contains(s[1..], sub) {
        var i :| OccursAt(s[1..], sub, i);
        assert s[i + 1..i + 1 + |sub|] == s[1..][i..i + |sub|];
        assert OccursAt(s, sub, i + 1);
      } else {
        forall i | OccursAt(s, sub, i)
          ensures false
        {
          assert i != 0;
          assert s[1..][i - 1..i - 1 + |sub|] == s[i..i + |sub|];
          assert OccursAt(s[1..], sub, i - 1);
        }
      }
    }
  }

  /** Every string includes the empty string. */
  lemma ContainsEmpty(s: string)
    ensures Contains(s, "")
  {
    assert s[..0] == "";
  }

  /** `s.length`: the number of UTF-16 code units, so a character above
      U+FFFF (stored as a surrogate pair) counts twice. */
  function Utf16Length(s: string): (n: nat)
    ensures |s| <= n <= 2 * |s|
    ensures n == |s| <==> forall i | 0 <= i < |s| :: s[i] as int <= 0xFFFF
    ensures n == |s| + |set i | 0 <= i < |s| && s[i] as int > 0xFFFF|
  {
    if s == [] then 0
    else
      var init := s[..|s| - 1];
      var rest := Utf16Length(init);
      var last := |s| - 1;
      assert forall i | 0 <= i < last :: s[i] == init[i];
      var before := set i | 0 <= i < |init| && init[i] as int > 0xFFFF;
      var after := set i | 0 <= i < |s| && s[i] as int > 0xFFFF;
      assert after == if s[last] as int > 0xFFFF then before + {last} else before;
      rest + (if s[last] as int > 0xFFFF then 2 else 1)
  }

  /** `toLowerCase` on one character; only the ASCII letters A-Z are mapped. */
  function LowerChar(c: char): char {
    if 'A' <= c <= 'Z' then (c as int + 32) as char else c
  }

  /** `s.toLowerCase()`, character by character. */
  function ToLower(s: string): (r: string)
    ensures |r| == |s|
    ensures forall i | 0 <= i < |s| :: r[i] == LowerChar(s[i])
  {
    if s == [] then [] else [LowerChar(s[0])] + ToLower(s[1..])
  }

  /** Lowering an already lowered string changes nothing. */
  lemma ToLowerIdempotent(s: string)
    ensures ToLower(ToLower(s)) == ToLower(s)
  {
    var t := ToLower(s);
    assert forall i | 0 <= i < |t| :: LowerChar(t[i]) == t[i];
  }
}

=== FILE: validation.dfy ===
/**
  The booking wizard's two validators and the rules by which editing a field
  clears that field's error: the customer-details check (eight required
  profile fields, blank after trimming counts as missing) and the payment
  check (four card fields, all checked, every failure reported).
 */
module Validation {
  import opened Text
  import opened Schema

  /** The profile fields a booking needs, in the order they are checked;
      the second address line is optional. */
  const RequiredFields: seq<Field> :=
    [FirstName, LastName, LicenceNumber, AddressLine1, City, County, Postcode, DateOfBirth]

  const RequiredMessage := "This field is required"

  /** A draft field counts as missing when it is null, undefined or blank
      after trimming. */
  predicate Missing(p: Profile, f: Field) {
    f !in p || !HasText(p[f])
  }

  /** One error per listed field that is missing, collected in list order. */
  function CollectMissing(p: Profile, fields: seq<Field>): (errors: map<Field, string>)
    ensures forall f :: f in errors <==> f in fields && Missing(p, f)
    ensures forall f | f in errors :: errors[f] == RequiredMessage
  {
    if fields == [] then map[]
    else
      var earlier := CollectMissing(p, fields[..|fields| - 1]);
      var f := fields[|fields| - 1];
      assert fields == fields[..|fields| - 1] + [f];
      if Missing(p, f) then earlier[f := RequiredMessage] else earlier
  }

  /** The required fields are all the profile fields but the second address line. */
  lemma RequiredFieldsExceptAddressLine2()
    ensures forall f :: f in RequiredFields <==> f != AddressLine2
  {
    forall f
      ensures f in RequiredFields <==> f != AddressLine2
    {
      match f
      case FirstName => assert RequiredFields[0] == f;
      case LastName => assert RequiredFields[1] == f;
      case LicenceNumber => assert RequiredFields[2] == f;
      case AddressLine1 => assert RequiredFields[3] == f;
      case AddressLine2 =>
      case City => assert RequiredFields[4] == f;
      case County => assert RequiredFields[5] == f;
      case Postcode => assert RequiredFields[6] == f;
      case DateOfBirth => assert RequiredFields[7] == f;
    }
  }

  /** The customer-details check: the errors it reports. */
  function ValidateDetails(p: Profile): (errors: map<Field, string>)
    ensures forall f :: f in errors <==> f != AddressLine2 && Missing(p, f)
    ensures forall f | f in errors :: errors[f] == RequiredMessage
  {
    RequiredFieldsExceptAddressLine2();
    CollectMissing(p, RequiredFields)
  }

  /** The check passes when it reports no error. */
  predicate DetailsValid(p: Profile) {
    ValidateDetails(p) == map[]
  }

  /** The details pass exactly when every field but the second address line
      is present and not blank. */
  lemma DetailsValidIff(p: Profile)
    ensures DetailsValid(p) <==>
      forall f | f != AddressLine2 :: f in p && !IsBlank(p[f])
  {
    var errors := ValidateDetails(p);
    forall f | f != AddressLine2
      ensures f in errors <==> !(f in p && !IsBlank(p[f]))
    {
    }
    if !DetailsValid(p) {
      var f :| f in errors;
      assert f != AddressLine2;
    }
  }

  /** The check made when a stored profile is loaded into the wizard: every
      required field is non-null and not the empty string. It does not trim. */
  function HasAllRequired(p: Profile): (ok: bool)
    ensures ok <==> forall f | f != AddressLine2 :: f in p && p[f] != ""
  {
    RequiredEntriesByField(p);
    forall i | 0 <= i < |RequiredFields| :: RequiredFields[i] in p && p[RequiredFields[i]] != ""
  }

  /** Checking the list entry by entry is checking every field but the
      second address line. */
  lemma RequiredEntriesByField(p: Profile)
    ensures (forall i | 0 <= i < |RequiredFields| :: RequiredFields[i] in p && p[RequiredFields[i]] != "")
        <==> (forall f | f != AddressLine2 :: f in p && p[f] != "")
  {
    RequiredFieldsExceptAddressLine2();
    if forall i | 0 <= i < |RequiredFields| :: RequiredFields[i] in p && p[RequiredFields[i]] != "" {
      forall f | f != AddressLine2
        ensures f in p && p[f] != ""
      {
        assert f in RequiredFields;
        var i :| 0 <= i < |RequiredFields| && RequiredFields[i] == f;
      }
    }
  }

  /** Passing the details check implies passing the load-time check. */
  lemma DetailsValidImpliesHasAllRequired(p: Profile)
    requires DetailsValid(p)
    ensures HasAllRequired(p)
  {
    forall i | 0 <= i < |RequiredFields|
      ensures RequiredFields[i] in p && p[RequiredFields[i]] != ""
    {
      var f := RequiredFields[i];
      assert f !in ValidateDetails(p);
    }
  }

  /** The converse fails: blanking out the city of a profile that passes the
      details check with a single space keeps the load-time check satisfied
      but makes the details check fail. */
  lemma BlankFieldPassesLoadCheckOnly(p: Profile)
    requires DetailsValid(p)
    ensures HasAllRequired(p[City := " "])
    ensures !DetailsValid(p[City := " "])
  {
    DetailsValidImpliesHasAllRequired(p);
    assert City in ValidateDetails(p[City := " "]);
  }

  /** Editing a profile field removes that field's error when the new value
      is not blank; every other error stays as it was. */
  function ClearDetailError(errors: map<Field, string>, f: Field, value: string): (r: map<Field, string>)
    ensures f in r <==> f in errors && !HasText(value)
    ensures f in r ==> r[f] == errors[f]
    ensures forall g | g != f :: (g in r <==> g in errors) && (g in r ==> r[g] == errors[g])
  {
    if HasText(value) then errors - {f} else errors
  }

  datatype CardField = CardNumber | CardName | ExpiryDate | Cvv

  datatype Card = Card(number: string, name: string, expiry: string, cvv: string) {
    function Get(f: CardField): string {
      match f
      case CardNumber => number
      case CardName => name
      case ExpiryDate => expiry
      case Cvv => cvv
    }

    function With(f: CardField, value: string): (c: Card)
      ensures c.Get(f) == value
      ensures forall g | g != f :: c.Get(g) == Get(g)
    {
      match f
      case CardNumber => this.(number := value)
      case CardName => this.(name := value)
      case ExpiryDate => this.(expiry := value)
      case Cvv => this.(cvv := value)
    }
  }

  const EmptyCard := Card("", "", "", "")

  /** The condition under which editing a card field clears its error: the
      value is not blank; an expiry must also contain "/", a CVV must also be
      at least three UTF-16 code units long. */
  function Accepted(f: CardField, value: string): (ok: bool)
    ensures ok ==> HasText(value)
    ensures f == ExpiryDate ==> (ok <==> HasText(value) && '/' in value)
    ensures f == Cvv ==> (ok <==> HasText(value) && Utf16Length(value) >= 3)
    ensures (f == CardNumber || f == CardName) ==> (ok <==> HasText(value))
  {
    match f
    case CardNumber => HasText(value)
    case CardName => HasText(value)
    case ExpiryDate => HasText(value) && '/' in value
    case Cvv => HasText(value) && Utf16Length(value) >= 3
  }

  /** The message one card field gets, if any. */
  function CardFieldError(f: CardField, value: string): (message: Option<string>)
    ensures message.None? <==> Accepted(f, value)
  {
    match f
    case CardNumber => if !HasText(value) then Some("Card number is required") else None
    case CardName => if !HasText(value) then Some("Name on card is required") else None
    case ExpiryDate =>
      if !HasText(value) then Some("Expiry date is required")
      else if '/' !in value then Some("Please use MM/YY format")
      else None
    case Cvv =>
      if !HasText(value) then Some("CVV is required")
      else if Utf16Length(value) < 3 then Some("CVV must be at least 3 digits")
      else None
  }

  /** The payment check: all four fields are checked, and every failing field
      gets its message. */
  function ValidatePayment(c: Card): (errors: map<CardField, string>)
    ensures forall f :: f in errors <==> !Accepted(f, c.Get(f))
    ensures CardNumber in errors ==> errors[CardNumber] == "Card number is required"
    ensures CardName in errors ==> errors[CardName] == "Name on card is required"
    ensures ExpiryDate in errors ==>
      errors[ExpiryDate] == if HasText(c.expiry) then "Please use MM/YY format" else "Expiry date is required"
    ensures Cvv in errors ==>
      errors[Cvv] == if HasText(c.cvv) then "CVV must be at least 3 digits" else "CVV is required"
  {
    map f | f in {CardNumber, CardName, ExpiryDate, Cvv} && CardFieldError(f, c.Get(f)).Some?
      :: CardFieldError(f, c.Get(f)).value
  }

  predicate PaymentValid(c: Card) {
    ValidatePayment(c) == map[]
  }

  /** Editing a card field removes that field's error when the new value is
      accepted; every other error stays as it was. */
  function ClearCardError(errors: map<CardField, string>, f: CardField, value: string): (r: map<CardField, string>)
    ensures f in r <==> f in errors && !Accepted(f, value)
    ensures f in r ==> r[f] == errors[f]
    ensures forall g | g != f :: (g in r <==> g in errors) && (g in r ==> r[g] == errors[g])
  {
    if Accepted(f, value) then errors - {f} else errors
  }

  /** The edit rule and the validator agree: editing a field clears its error
      exactly when validating the edited card would not flag that field. */
  lemma ClearCardErrorAgreesWithValidator(c: Card, errors: map<CardField, string>, f: CardField, value: string)
    requires f in errors
    ensures f !in ClearCardError(errors, f, value) <==> f !in ValidatePayment(c.With(f, value))
  {
  }

  /** The same agreement for the profile fields the details check covers. */
  lemma ClearDetailErrorAgreesWithValidator(p: Profile, errors: map<Field, string>, f: Field, value: string)
    requires f in errors && f != AddressLine2
    ensures f !in ClearDetailError(errors, f, value) <==> f !in ValidateDetails(p[f := value])
  {
  }

  /** The fields are checked independently: changing one field changes
      neither the presence nor the message of any other field's error. */
  lemma PaymentFieldsIndependent(c: Card, f: CardField, value: string)
    ensures forall g | g != f ::
      && (g in ValidatePayment(c) <==> g in ValidatePayment(c.With(f, value)))
      && (g in ValidatePayment(c) ==> ValidatePayment(c)[g] == ValidatePayment(c.With(f, value))[g])
  {
  }

  /** A CVV is measured in UTF-16 code units: one digit followed by a
      character outside the Basic Multilingual Plane is three units long and
      passes the length rule, while "12" is two units long and fails it. */
  lemma CvvLengthInCodeUnits()
    ensures CardFieldError(Cvv, "1\U{1F600}") == None
    ensures CardFieldError(Cvv, "12") == Some("CVV must be at least 3 digits")
  {
    assert Utf16Length("1\U{1F600}") == 3 by {
      assert "1\U{1F600}"[1..] == "\U{1F600}";
      assert "\U{1F600}"[1..] == "";
    }
    assert Utf16Length("12") == 2 by {
      assert "12"[1..] == "2";
      assert "2"[1..] == "";
    }
  }
}

=== FILE: wizard.dfy ===
/**
  The booking wizard for one car: the dialog's state, the handlers of its
  events, the step machine `dates -> details -> payment -> confirmation`, and
  the final four-write submit against the store.
 */
module Wizard {
  import opened Schema
  import Pricing
  import opened Validation

  datatype Step = DatesStep | DetailsStep | PaymentStep | ConfirmationStep

  /** The dialog's state. `details` is the profile draft, `touched` the card
      fields edited since the step last changed. */
  datatype Modal = Modal(
    isOpen: bool,
    step: Step,
    insuranceType: string,
    startDate: Option<int>,
    endDate: Option<int>,
    isSubmitting: bool,
    details: Profile,
    hasRequiredDetails: bool,
    validationErrors: map<Field, string>,
    card: Card,
    paymentErrors: map<CardField, string>,
    paymentAttempted: bool,
    touched: set<CardField>)
  {
    function Days(): int {
      Pricing.Days(startDate, endDate)
    }

    function InsuranceCost(): int {
      Pricing.InsuranceCost(insuranceType, Days())
    }

    function TotalCost(car: Car): int {
      Pricing.TotalCost(Days(), car.rentalRate, insuranceType)
    }
  }

  /** The state the dialog is created in at time `now`: closed, on the dates
      step, basic cover, from now until three days later. */
  function Initial(now: int): (m: Modal)
    ensures !m.isOpen && m.step == DatesStep && m.insuranceType == "basic"
    ensures m.startDate == Some(now) && m.Days() == 3 && m.InsuranceCost() == 3 * Pricing.BasicRate
    ensures !m.isSubmitting && !m.hasRequiredDetails && !m.paymentAttempted
    ensures m.details == map[] && m.card == EmptyCard && m.touched == {}
    ensures m.validationErrors == map[] && m.paymentErrors == map[]
  {
    Pricing.WholeDays(now, 3);
    Modal(false, DatesStep, "basic", Some(now), Some(now + 3 * Pricing.DayMs), false,
          map[], false, map[], EmptyCard, map[], false, {})
  }

  /** Moving to step `s`; when the step actually changes, the "payment
      attempted" flag and the touched fields are reset. */
  function GoTo(m: Modal, s: Step): (r: Modal)
    ensures r.step == s
    ensures s == m.step ==> r == m
    ensures s != m.step ==> r == m.(step := s, paymentAttempted := false, touched := {})
  {
    if s == m.step then m else m.(step := s, paymentAttempted := false, touched := {})
  }

  /** Opening the dialog: validation and payment errors, the flags and the
      four card fields are cleared, and a fetched profile replaces the draft.
      The step, the insurance tier and the dates are kept from before. */
  function Open(m: Modal, fetched: Option<Customer>): (r: Modal)
    ensures r.isOpen
    ensures r.step == m.step && r.insuranceType == m.insuranceType
    ensures r.startDate == m.startDate && r.endDate == m.endDate
    ensures r.isSubmitting == m.isSubmitting
    ensures r.validationErrors == map[] && r.paymentErrors == map[]
    ensures !r.paymentAttempted && r.touched == {}
    ensures r.card == EmptyCard
    ensures fetched.None? ==> r.details == m.details && r.hasRequiredDetails == m.hasRequiredDetails
    ensures fetched.Some? ==>
      r.details == fetched.value.profile && r.hasRequiredDetails == HasAllRequired(fetched.value.profile)
  {
    var cleared := m.(isOpen := true, validationErrors := map[], paymentErrors := map[],
                      paymentAttempted := false, touched := {}, card := EmptyCard);
    match fetched
    case None => cleared
    case Some(c) => cleared.(details := c.profile, hasRequiredDetails := HasAllRequired(c.profile))
  }

  /** Closing the dialog (Cancel, the close button, a click outside): only
      the open flag changes. */
  function Close(m: Modal): (r: Modal)
    ensures !r.isOpen && r.(isOpen := m.isOpen) == m
  {
    m.(isOpen := false)
  }

  /** "Continue" on the dates step: straight to payment when the stored
      profile already had every required field, to the details form otherwise. */
  function Continue(m: Modal): (r: Modal)
    ensures r.step == if m.hasRequiredDetails then PaymentStep else DetailsStep
    ensures r == GoTo(m, r.step)
  {
    GoTo(m, if m.hasRequiredDetails then PaymentStep else DetailsStep)
  }

  /** "Back" on the details and payment steps. */
  function Back(m: Modal): (r: Modal)
    ensures r.step == DatesStep
    ensures r == GoTo(m, DatesStep)
  {
    GoTo(m, DatesStep)
  }

  /** Typing into a profile field of the details form. */
  function EditDetail(m: Modal, f: Field, value: string): (r: Modal)
    ensures r.details == m.details[f := value]
    ensures r.validationErrors == ClearDetailError(m.validationErrors, f, value)
    ensures r.(details := m.details, validationErrors := m.validationErrors) == m
  {
    m.(details := m.details[f := value], validationErrors := ClearDetailError(m.validationErrors, f, value))
  }

  /** Typing into a card field of the payment form. */
  function EditCard(m: Modal, f: CardField, value: string): (r: Modal)
    ensures r.card.Get(f) == value && f in r.touched
    ensures r.paymentErrors == ClearCardError(m.paymentErrors, f, value)
    ensures r.(card := m.card, touched := m.touched, paymentErrors := m.paymentErrors) == m
  {
    m.(card := m.card.With(f, value), touched := m.touched + {f},
       paymentErrors := ClearCardError(m.paymentErrors, f, value))
  }

  datatype Booking = Booking(modal: Modal, store: Store)

  /** "Save and Continue" on the details step: validate the draft, then upsert
      it keyed by the signed-in user; only when both succeed does the wizard
      record that the details are complete and move on to payment. */
  function SaveDetails(m: Modal, st: Store, user: Option<Id>, upsertOk: bool): (r: Booking)
    ensures user.None? ==> r == Booking(m, st)
    ensures user.Some? ==> r.modal.validationErrors == ValidateDetails(m.details)
    ensures user.Some? && DetailsValid(m.details) && upsertOk ==>
      && r.store == st.(customers := UpsertProfile(st.customers, user.value, m.details))
      && r.modal.hasRequiredDetails
      && r.modal.step == PaymentStep
    ensures !(user.Some? && DetailsValid(m.details) && upsertOk) ==>
      && r.store == st
      && r.modal.step == m.step
      && r.modal.hasRequiredDetails == m.hasRequiredDetails
    ensures r.modal.details == m.details && r.modal.card == m.card
    ensures user.Some? ==>
      r.modal == GoTo(m.(validationErrors := r.modal.validationErrors,
                         hasRequiredDetails := r.modal.hasRequiredDetails), r.modal.step)
  {
    if user.None? then Booking(m, st)
    else
      var checked := m.(validationErrors := ValidateDetails(m.details));
      if !DetailsValid(m.details) || !upsertOk then Booking(checked, st)
      else
        Booking(GoTo(checked.(hasRequiredDetails := true), PaymentStep),
                st.(customers := UpsertProfile(st.customers, user.value, m.details)))
  }

  /** "Pay" on the payment step: validate all four card fields; on success
      move to the confirmation step. Nothing is sent anywhere. */
  function ProcessPayment(m: Modal): (r: Modal)
    ensures r.paymentErrors == ValidatePayment(m.card)
    ensures PaymentValid(m.card) ==> r.step == ConfirmationStep
    ensures !PaymentValid(m.card) ==> r.step == m.step && r.paymentAttempted
    ensures r.card == m.card && r.details == m.details
    ensures r == GoTo(m.(paymentAttempted := true, paymentErrors := r.paymentErrors), r.step)
  {
    var checked := m.(paymentAttempted := true, paymentErrors := ValidatePayment(m.card));
    if !PaymentValid(m.card) then checked else GoTo(checked, ConfirmationStep)
  }

  /** The four writes of "Complete Rental", in order. */
  datatype SubmitStep = InsertRental | InsertInsurance | InsertPayment | MarkCarRented

  function StepAt(k: nat): SubmitStep
    requires k < 4
  {
    [InsertRental, InsertInsurance, InsertPayment, MarkCarRented][k]
  }

  /** The ids the backend assigns to the three inserted rows. */
  datatype NewIds = NewIds(rental: Id, insurance: Id, payment: Id)

  /** The insert of write `k` is refused because its id is already taken. */
  predicate IdTaken(st: Store, ids: NewIds, k: nat) {
    || (k == 0 && ids.rental in st.rentals)
    || (k == 1 && ids.insurance in st.insurance)
    || (k == 2 && ids.payment in st.payments)
  }

  /** Write `k` fails: the backend call named by `fail` is that write, or the
      insert is refused. */
  predicate WriteFails(st: Store, ids: NewIds, fail: Option<SubmitStep>, k: nat)
    requires k < 4
  {
    fail == Some(StepAt(k)) || IdTaken(st, ids, k)
  }

  /** The result of "Complete Rental": the dialog, the store, and how many of
      the four writes took effect. */
  datatype SubmitOutcome = SubmitOutcome(modal: Modal, store: Store, writes: nat)

  /** "Complete Rental": insert the rental (active), its insurance (cost of the
      chosen tier, same period) and its payment (the total, by card,
      completed), then mark the car rented. The first failing write ends the
      sequence; the writes before it stay. The dialog closes only when all
      four succeed; the busy flag is cleared in every case. */
  function Submit(m: Modal, st: Store, user: Option<Id>, car: Car, ids: NewIds, now: int,
                  fail: Option<SubmitStep>): (r: SubmitOutcome)
    ensures user.None? || m.startDate.None? || m.endDate.None? ==> r == SubmitOutcome(m, st, 0)
    ensures user.Some? && m.startDate.Some? && m.endDate.Some? ==>
      var s, e := m.startDate.value, m.endDate.value;
      && r.writes <= 4
      && (forall k | 0 <= k < r.writes :: !WriteFails(st, ids, fail, k))
      && (r.writes < 4 ==> WriteFails(st, ids, fail, r.writes))
      && r.modal == m.(isSubmitting := false, isOpen := m.isOpen && r.writes < 4)
      && r.store.customers == st.customers
      && r.store.rentals ==
           (if r.writes >= 1 then st.rentals[ids.rental := Rental(ids.rental, car.id, user.value, s, e, Active)]
            else st.rentals)
      && r.store.insurance ==
           (if r.writes >= 2
            then st.insurance[ids.insurance := Insurance(ids.insurance, ids.rental, m.insuranceType,
                                                        Pricing.InsuranceCost(m.insuranceType, m.Days()), s, e)]
            else st.insurance)
      && r.store.payments ==
           (if r.writes >= 3
            then st.payments[ids.payment := Payment(ids.payment, ids.rental,
                                                    Pricing.TotalCost(m.Days(), car.rentalRate, m.insuranceType),
                                                    now, "card", "completed")]
            else st.payments)
      && r.store.cars == (if r.writes == 4 then SetCarStatus(st.cars, {car.id}, Rented) else st.cars)
  {
    if user.None? || m.startDate.None? || m.endDate.None? then SubmitOutcome(m, st, 0)
    else
      var s, e := m.startDate.value, m.endDate.value;
      var settled := m.(isSubmitting := false);
      if WriteFails(st, ids, fail, 0) then SubmitOutcome(settled, st, 0)
      else
        var st1 := st.(rentals := st.rentals[ids.rental := Rental(ids.rental, car.id, user.value, s, e, Active)]);
        if WriteFails(st, ids, fail, 1) then SubmitOutcome(settled, st1, 1)
        else
          var st2 := st1.(insurance := st.insurance[ids.insurance :=
                            Insurance(ids.insurance, ids.rental, m.insuranceType, m.InsuranceCost(), s, e)]);
          if WriteFails(st, ids, fail, 2) then SubmitOutcome(settled, st2, 2)
          else
            var st3 := st2.(payments := st.payments[ids.payment :=
                              Payment(ids.payment, ids.rental, m.TotalCost(car), now, "card", "completed")]);
            if WriteFails(st, ids, fail, 3) then SubmitOutcome(settled, st3, 3)
            else SubmitOutcome(settled.(isOpen := false), st3.(cars := SetCarStatus(st.cars, {car.id}, Rented)), 4)
  }

  /** The dialog's events; each carries what its handler reads from outside. */
  datatype Event =
    | Opened(fetched: Option<Customer>)
    | Closed
    | InsuranceChosen(tier: string)
    | StartChosen(date: Option<int>)
    | EndChosen(date: Option<int>)
    | DetailEdited(field: Field, value: string)
    | CardEdited(cardField: CardField, text: string)
    | ContinuePressed
    | BackPressed
    | SaveDetailsPressed(user: Option<Id>, upsertOk: bool)
    | PayPressed
    | CompleteRentalPressed(renter: Option<Id>, car: Car, ids: NewIds, now: int, fail: Option<SubmitStep>)

  /** Whether the dialog offers the event in state `m`: each step renders its
      own inputs and buttons; "Complete Rental" is disabled while busy. */
  function Enabled(m: Modal, e: Event): (offered: bool)
    ensures offered && !e.Opened? ==> m.isOpen
    ensures offered && e.CompleteRentalPressed? ==> m.step == ConfirmationStep && !m.isSubmitting
    ensures offered && e.PayPressed? ==> m.step == PaymentStep
    ensures offered && (e.SaveDetailsPressed? || e.DetailEdited?) ==> m.step == DetailsStep
    ensures offered && (e.ContinuePressed? || e.InsuranceChosen? || e.StartChosen? || e.EndChosen?) ==>
              m.step == DatesStep
    ensures offered && e.CardEdited? ==> m.step == PaymentStep
    ensures offered && e.BackPressed? ==> m.step == DetailsStep || m.step == PaymentStep
    ensures e.Opened? ==> (offered <==> !m.isOpen)
    ensures e.Closed? ==> (offered <==> m.isOpen)
  {
    match e
    case Opened(_) => !m.isOpen
    case Closed => m.isOpen
    case InsuranceChosen(_) => m.isOpen && m.step == DatesStep
    case StartChosen(_) => m.isOpen && m.step == DatesStep
    case EndChosen(_) => m.isOpen && m.step == DatesStep
    case ContinuePressed => m.isOpen && m.step == DatesStep
    case DetailEdited(_, _) => m.isOpen && m.step == DetailsStep
    case SaveDetailsPressed(_, _) => m.isOpen && m.step == DetailsStep
    case BackPressed => m.isOpen && (m.step == DetailsStep || m.step == PaymentStep)
    case CardEdited(_, _) => m.isOpen && m.step == PaymentStep
    case PayPressed => m.isOpen && m.step == PaymentStep
    case CompleteRentalPressed(_, _, _, _, _) => m.isOpen && m.step == ConfirmationStep && !m.isSubmitting
  }

  /** The effect of an event on the dialog and the store: each control's
      event goes to its own handler, and a picker sets only its own field. */
  function Apply(m: Modal, st: Store, e: Event): (r: Booking)
    ensures !(e.SaveDetailsPressed? || e.CompleteRentalPressed?) ==> r.store == st
    ensures e.Closed? ==> r.modal == Close(m) && !r.modal.isOpen
    ensures e.Opened? ==> r.modal == Open(m, e.fetched) && r.modal.isOpen && r.modal.card == EmptyCard
    ensures e.InsuranceChosen? ==> r == Booking(m.(insuranceType := e.tier), st)
    ensures e.StartChosen? ==> r == Booking(m.(startDate := e.date), st)
    ensures e.EndChosen? ==> r == Booking(m.(endDate := e.date), st)
    ensures e.DetailEdited? ==> r.modal == EditDetail(m, e.field, e.value)
    ensures e.CardEdited? ==> r.modal == EditCard(m, e.cardField, e.text)
    ensures e.ContinuePressed? ==> r.modal == Continue(m)
    ensures e.BackPressed? ==> r.modal == Back(m)
    ensures e.PayPressed? ==> r.modal == ProcessPayment(m)
    ensures e.SaveDetailsPressed? ==> r == SaveDetails(m, st, e.user, e.upsertOk)
    ensures e.CompleteRentalPressed? ==>
      var out := Submit(m, st, e.renter, e.car, e.ids, e.now, e.fail);
      r.modal == out.modal && r.store == out.store
  {
    match e
    case Opened(fetched) => Booking(Open(m, fetched), st)
    case Closed => Booking(Close(m), st)
    case InsuranceChosen(tier) => Booking(m.(insuranceType := tier), st)
    case StartChosen(date) => Booking(m.(startDate := date), st)
    case EndChosen(date) => Booking(m.(endDate := date), st)
    case DetailEdited(f, value) => Booking(EditDetail(m, f, value), st)
    case CardEdited(f, value) => Booking(EditCard(m, f, value), st)
    case ContinuePressed => Booking(Continue(m), st)
    case BackPressed => Booking(Back(m), st)
    case SaveDetailsPressed(user, upsertOk) => SaveDetails(m, st, user, upsertOk)
    case PayPressed => Booking(ProcessPayment(m), st)
    case CompleteRentalPressed(user, car, ids, now, fail) =>
      var r := Submit(m, st, user, car, ids, now, fail);
      Booking(r.modal, r.store)
  }

  /** The confirmation step is entered only by paying with a card that passes
      the payment check. */
  lemma ConfirmationOnlyAfterValidPayment(m: Modal, st: Store, e: Event)
    requires Enabled(m, e)
    requires m.step != ConfirmationStep
    requires Apply(m, st, e).modal.step == ConfirmationStep
    ensures e.PayPressed? && PaymentValid(m.card)
  {
  }

  /** The payment step is entered either from the dates step when the stored
      profile was complete, or by saving details that pass the details check
      and are stored successfully. */
  lemma PaymentStepEntry(m: Modal, st: Store, e: Event)
    requires Enabled(m, e)
    requires m.step != PaymentStep
    requires Apply(m, st, e).modal.step == PaymentStep
    ensures || (e.ContinuePressed? && m.step == DatesStep && m.hasRequiredDetails)
            || (e.SaveDetailsPressed? && e.user.Some? && e.upsertOk && DetailsValid(m.details))
  {
  }

  /** Only saving details and completing the rental reach the backend. */
  lemma OnlySaveAndSubmitWrite(m: Modal, st: Store, e: Event)
    requires Apply(m, st, e).store != st
    ensures e.SaveDetailsPressed? || e.CompleteRentalPressed?
  {
  }

  /** Opening twice is the same as opening once. */
  lemma OpenIdempotent(m: Modal, fetched: Option<Customer>)
    ensures Open(Open(m, fetched), fetched) == Open(m, fetched)
  {
  }

  /** Re-opening a dialog that was closed on the confirmation step shows the
      confirmation step again with the card fields cleared, so "Complete
      Rental" is offered although the card now fails the payment check. */
  lemma ReopenAtConfirmationSkipsPayment(m: Modal, fetched: Option<Customer>)
    requires !m.isOpen && m.step == ConfirmationStep && !m.isSubmitting
    ensures var r := Open(m, fetched);
            && r.step == ConfirmationStep
            && !PaymentValid(r.card)
            && forall renter, car, ids, now, fail ::
                 Enabled(r, CompleteRentalPressed(renter, car, ids, now, fail))
  {
    assert CardNumber in ValidatePayment(EmptyCard);
  }

  /** The partner of SaveDetails: once a valid draft is saved, the next
      opening of the dialog reads back a profile that passes the load-time
      check, so "Continue" goes straight to the payment step. */
  lemma SavedDetailsSkipDetailsStepOnReopen(m: Modal, st: Store, user: Id)
    requires DetailsValid(m.details)
    ensures var saved := SaveDetails(m, st, Some(user), true);
            var reopened := Open(Close(saved.modal), FetchCustomer(saved.store, Some(user), true));
            && reopened.hasRequiredDetails
            && Continue(reopened).step == PaymentStep
            && forall f | f in m.details :: f in reopened.details && reopened.details[f] == m.details[f]
  {
    var saved := SaveDetails(m, st, Some(user), true);
    var row := saved.store.customers[user];
    DetailsValidImpliesHasAllRequired(m.details);
    assert HasAllRequired(row.profile) by {
      RequiredEntriesByField(m.details);
      RequiredEntriesByField(row.profile);
    }
  }

  /** A fully successful submit leaves an active rental for the car, with its
      insurance and payment, and the car marked rented. */
  lemma SubmitSuccess(m: Modal, st: Store, user: Id, car: Car, ids: NewIds, now: int)
    requires m.startDate.Some? && m.endDate.Some?
    requires ids.rental !in st.rentals && ids.insurance !in st.insurance && ids.payment !in st.payments
    requires car.id in st.cars
    ensures var r := Submit(m, st, Some(user), car, ids, now, None);
            && r.writes == 4 && !r.modal.isOpen
            && r.store.rentals[ids.rental].status == Active
            && r.store.rentals[ids.rental].carId == car.id
            && r.store.insurance[ids.insurance].rentalId == ids.rental
            && r.store.payments[ids.payment].rentalId == ids.rental
            && r.store.cars[car.id].status == Rented
  {
    var r := Submit(m, st, Some(user), car, ids, now, None);
    assert forall k | 0 <= k < 4 :: !WriteFails(st, ids, None, k);
  }

  /** A submit whose insurance insert fails keeps the active rental already
      written, writes no insurance or payment, leaves the car's status alone
      and keeps the dialog open. */
  lemma SubmitFailsAtInsurance(m: Modal, st: Store, user: Id, car: Car, ids: NewIds, now: int)
    requires m.isOpen && m.startDate.Some? && m.endDate.Some?
    requires ids.rental !in st.rentals
    ensures var r := Submit(m, st, Some(user), car, ids, now, Some(InsertInsurance));
            && r.writes == 1 && r.modal.isOpen
            && ids.rental in r.store.rentals && r.store.rentals[ids.rental].status == Active
            && r.store.insurance == st.insurance && r.store.payments == st.payments
            && r.store.cars == st.cars
  {
  }
}
